=== FILE: README.md ===
# spartan-framework core, modelled in Dafny

This project models three parts of the spartan-framework service template and
proves properties of each.

- **Observability layer.** This covers the Google Cloud logger (`GCloudLogger`) and tracer (`GCloudTracer`).
  - Logger: construction outcomes, redaction of sensitive extra fields, the sampling gate, the caller location, structured record assembly, and the six level methods.
  - Tracer: construction, the two decorators, and the segment and subsegment scopes.
  - The implementation files `app/services/logging/gcloud.py` and `app/services/tracing/gcloud.py` are not part of this model. Their behaviour is rebuilt from the unit tests that pin it down. The table below cites those test lines.
- **User service** (`app/services/user.py`). This covers listing with a sort whitelist, filters and page arithmetic, plus lookup, creation, partial update and deletion over a store of user rows.
- **DynamoDB helper** (`app/helpers/dynamodb.py`). This covers table-name validation and the keyword arguments handed to the AWS resource factory.

Files and modules:

| file | module | contents |
|---|---|---|
| wrappers.dfy | Wrappers | `Option`, `Result` |
| text.dfy | Text | Python truthiness, substring search, `str.split`, `os.path.basename`, `isdigit`, `str.lower` into ASCII letters, lexicographic order |
| like.dfy | SqlLike | SQL `LIKE` pattern matching |
| environment.dfy | Environment | the settings as a map with lookup-with-default |
| dynamodb.dfy | DynamoDB | `ddb` |
| redaction.dfy | Redaction | extra-field redaction |
| sampling.dfy | Sampling | the sampling gate and the effective rate |
| caller_location.dfy | CallerLocation | caller location from a frame list |
| gcloud_logger.dfy | GCloudLogger | construction, records, emission |
| gcloud_tracer.dfy | GCloudTracer | construction, decorators, scopes |
| user_ordering.dfy | UserOrdering | sort whitelist and a stable insertion sort |
| user_service.dfy | UserService | `all`, `total`, `get_by_id`, `find`, `save`, `update`, `delete` |

Outside inputs become parameters, so the model reads nothing from the world:
- the random draw
- the stack snapshot, as a list of `(file, line)` frames
- `os.path.relpath`, as a function that may fail
- the clock, as an opaque non-empty timestamp
- whether the Cloud libraries import
- what the Cloud clients do, as a capability value
- the project root, which `NewLogger` takes and the logger keeps
- the id the database assigns, and the time it stamps as both `created_at` and `updated_at` of a new row

The sink the logger writes to is modelled as an output trace of sink calls.

Design decisions taken where the tests leave the implementation open:
- **Level filtering.** `debug()` reaches the sink (tests/unit/test_logging_gcloud.py:434-462), so the wrapper does not filter by level. The level is only kept on the logger.
- **Effective rate.** The rate is the `sample_rate` argument when it is truthy. Otherwise it is `LOG_SAMPLE_RATE` (default `"1.0"`) parsed as a number. Python treats `0.0` as falsy, so a `0.0` argument reads the setting (tests/unit/test_logging_gcloud.py:161-171).
- **Unparsable rate.** A setting that does not parse fails construction with a `ValueError`.
- **Caller frames.** The frame list starts at the caller. A frame is under the project root when its path starts with the root.
- **Sensitive words.** The tests redact `password`, `token` and `api_key` and keep `username` and `email` (tests/unit/test_logging_gcloud.py:100-114). The model adds `secret`, and assumes the list is exactly these four words; the tests neither show `secret` nor rule out other words. The model also assumes that a name is sensitive when its lower-cased form contains one of the words. The tests use only the exact lower-case names, so they do not show case-insensitive substring matching; an exact-name or case-sensitive rule would pass them too. The `ACCESS_TOKEN` and KELVIN SIGN rows below are consequences of this assumption.
- **Extra fields.** A sanitised extra field overrides a built-in record field of the same name. An absent `APP_ENVIRONMENT` or `APP_VERSION` is `None` in the record.
- **`exception()` severity.** `exception()` builds its record with severity `ERROR`.

## Model

| member | source | states |
|---|---|---|
| GCloudLogger.NewLogger | tests/unit/test_logging_gcloud.py:14-78 | without the library construction is an ImportError naming the missing dependencies. Otherwise it succeeds exactly when the effective rate resolves. The logger keeps its service name and level, and its rate is the effective rate: the argument when truthy, else the parsed `LOG_SAMPLE_RATE`. A raising client setup falls back to a channel whose name contains `gcloud_fallback`, after printing the warning with the error text and the fallback notice, in that order. A working setup prints nothing. |
| Redaction.Sanitize | tests/unit/test_logging_gcloud.py:84-137 | `None` sanitises to the empty map. Otherwise the key set is kept, every key whose name, lower-cased as Python does (the KELVIN SIGN folds to `k`), contains password, token, api_key or secret maps to `[REDACTED]`, and every other key keeps its value |
| Redaction.SanitizeIdempotent | tests/unit/test_logging_gcloud.py:100-117 | sanitising a sanitised map changes nothing |
| Redaction.SanitizeKeepsOnlyPlainValues | tests/unit/test_logging_gcloud.py:100-117 | each value is either kept or replaced by the marker, and it is replaced only under a sensitive name |
| Redaction.CredentialNamesAreSensitive | tests/unit/test_logging_gcloud.py:100-115 | `password`, `token` and `api_key` are sensitive names, and so is `ACCESS_TOKEN`, under the assumed rule of case-insensitive substring matching (see Sensitive words) |
| Redaction.KelvinSignFoldsToK | tests/unit/test_logging_gcloud.py:100-115 | a name spelling `api_key` with the KELVIN SIGN for the k is sensitive, as Python's `lower()` makes it `api_key`; this follows from the assumed case-insensitive substring rule (see Sensitive words) |
| Redaction.PlainWhenLettersMissing | tests/unit/test_logging_gcloud.py:100-117 | a name whose lower-cased form lacks the letters p, k and c contains none of the sensitive words |
| Redaction.IdentityFieldsArePlain | tests/unit/test_logging_gcloud.py:112-116 | `username`, `email` and `user_id` are not sensitive, so they pass through |
| GCloudLogger.SanitizeExample | tests/unit/test_logging_gcloud.py:100-137 | the test's extra dict comes out with the three credentials redacted and username and email unchanged, and `None` and `{}` both sanitise to `{}` |
| Sampling.ShouldSample | tests/unit/test_logging_gcloud.py:143-189 | a call is sampled exactly when the draw is below the rate, so rate 1 always samples and rate 0 never does |
| Sampling.DrawIrrelevantOutsideOpenInterval | tests/unit/test_logging_gcloud.py:157-171 | at rate 0 or below, or at rate 1 or above, the decision does not depend on the draw |
| Sampling.ParseDecimal | tests/unit/test_logging_gcloud.py:143-189 | a text parses exactly when it is plain decimal notation: a run of digits, or one point with digit runs either side and at least one digit in all. Every other text, the empty one included, is refused, and a parsed rate is never negative |
| Sampling.DecimalTextSplits | tests/unit/test_logging_gcloud.py:143-189 | plain decimal notation is exactly the texts that split at `.` into one digit run, or into two digit runs not both empty |
| Sampling.MalformedRatesDoNotParse | tests/unit/test_logging_gcloud.py:143-189 | `abc`, `1.2.3` and `.` do not parse |
| Sampling.WholeNumbersParse | tests/unit/test_logging_gcloud.py:143-189 | every whole number, written in decimal as `str()` prints it, parses back to its value |
| Sampling.DigitStringsParse | tests/unit/test_logging_gcloud.py:143-189 | any non-empty digit string without a point, leading zeros included, parses to the number it spells |
| Sampling.DecimalsParse | tests/unit/test_logging_gcloud.py:143-189 | `a.b`, with digit runs `a` and `b` not both empty, parses to `a` plus `b` divided by ten to the length of `b` |
| Sampling.OneDecimalPlace | tests/unit/test_logging_gcloud.py:143-189 | `d.e` with single digits `d` and `e` parses to `d` plus `e` tenths |
| Sampling.RateTextsParse | tests/unit/test_logging_gcloud.py:143-189 | the settings `1.0`, `0.0` and `0.5` used by the tests parse to 1, 0 and one half |
| Sampling.EffectiveRate | tests/unit/test_logging_gcloud.py:157-171 | a truthy argument is the rate. A missing or `0.0` argument reads `LOG_SAMPLE_RATE` (default `1.0`) as a number |
| Sampling.ZeroRateSettingNeverSamples | tests/unit/test_logging_gcloud.py:157-171 | with no argument or a `0.0` argument and the setting `0.0`, the rate is 0 and no draw samples |
| Sampling.HalfRateSetting | tests/unit/test_logging_gcloud.py:173-189 | the setting `0.5` gives rate one half, where draw 0.3 samples and draw 0.7 does not |
| CallerLocation.Location | tests/unit/test_logging_gcloud.py:195-291 | with no frame under the project root the location is `unknown:0`. Otherwise it is the first such frame rendered as relative path, or as basename when the relative path fails, then a colon and the line |
| CallerLocation.LocationHasOneColon | tests/unit/test_logging_gcloud.py:210-216 | when no path has a colon, splitting a location on `:` gives exactly two parts, the second all digits |
| CallerLocation.RelpathFailureGivesBasename | tests/unit/test_logging_gcloud.py:254-291 | a frame `dir/name` under the root whose relative path fails is located as `name:line` |
| CallerLocation.TestFrameLocation | tests/unit/test_logging_gcloud.py:267-291 | the test's frame `<root>/app/test.py` at line 99 is located as `test.py:99` |
| GCloudLogger.StructuredLog | tests/unit/test_logging_gcloud.py:297-325 | the record holds the seven built-in keys plus the sanitised extra keys and nothing else. Extra fields win on a clash, and a sensitive extra key never carries its value. Otherwise severity, service, message, environment, version, timestamp and location come from the call, the logger and the settings |
| GCloudLogger.StructuredLogExample | tests/unit/test_logging_gcloud.py:314-325 | the test's record has severity INFO, service test-service, the message, environment test, version 1.0.0, user_id 123, a timestamp and a location |
| GCloudLogger.Log | tests/unit/test_logging_gcloud.py:331-533 | a call reaches the sink exactly when its draw is below the rate, once, through the same-named method, with the record built for it |
| GCloudLogger.UnsampledCallReadsNothing | tests/unit/test_logging_gcloud.py:536-583 | an unsampled call writes nothing, whatever the stack, settings or clock |
| GCloudLogger.FullRateWritesEach | tests/unit/test_logging_gcloud.py:331-533 | at rate 1 every call in a sequence reaches the sink through its same-named method, in order |
| GCloudLogger.UnparsableRateSettingFails | tests/unit/test_logging_gcloud.py:38-44 | with no truthy rate argument and a `LOG_SAMPLE_RATE` that is not plain decimal notation, such as the test's `production`, construction fails with a `ValueError`. The test passes the truthy rate 0.5, so it never reads that setting |
| GCloudLogger.ZeroRateWritesNothing | tests/unit/test_logging_gcloud.py:567-583 | at rate 0 no call in a sequence reaches the sink |
| GCloudLogger.ZeroRateSettingSilencesLogger | tests/unit/test_logging_gcloud.py:536-583 | a logger built with no rate argument while `LOG_SAMPLE_RATE` is `0.0` is built, and none of its calls reaches the sink, whatever the draws |
| GCloudLogger.ZeroRateTestCallsWriteNothing | tests/unit/test_logging_gcloud.py:569-583 | the test's five calls (info, warning, error, debug, exception) on that logger leave the sink untouched |
| GCloudTracer.NewTracer | tests/unit/test_tracing_gcloud.py:11-36 | without the library construction is an ImportError naming the missing dependencies. Otherwise the tracer keeps its service name and exactly the client it was given |
| GCloudTracer.ReportWith | tests/unit/test_tracing_gcloud.py:53-108 | the report patches exactly when the client can, skips exactly when it has no `patch_traces`, and swallows what a raising client raises |
| GCloudTracer.Invoke | tests/unit/test_tracing_gcloud.py:53-108 | a traced call returns or re-raises the wrapped code's own outcome, whatever the report did |
| GCloudTracer.CaptureLambdaHandler | tests/unit/test_tracing_gcloud.py:42-108 | the handler decorated by a tracer, reporting through that tracer's client, gives the handler's own result or error for every event and context |
| GCloudTracer.CaptureMethod | tests/unit/test_tracing_gcloud.py:111-182 | the method decorated by a tracer receives its receiver and arguments unchanged and gives the method's own result or error |
| GCloudTracer.CaptureIgnoresCapability | tests/unit/test_tracing_gcloud.py:53-179 | both decorators give the same result under any two tracers, whether their clients patch, lack `patch_traces` or raise |
| GCloudTracer.Scope | tests/unit/test_tracing_gcloud.py:185-259 | a scope ends in the body's own state and outcome and closes exactly one span of its kind and name, reported through the tracer's client. The span is marked failed exactly when the body raised |
| GCloudTracer.CreateSegment | tests/unit/test_tracing_gcloud.py:185-222 | a segment runs its body transparently, closes one segment span of that name, and carries the given metadata |
| GCloudTracer.CreateSubsegment | tests/unit/test_tracing_gcloud.py:225-259 | a subsegment runs its body transparently and closes one subsegment span of that name |
| GCloudTracer.ScopesRunTheirBody | tests/unit/test_tracing_gcloud.py:195-239 | the tests' `executed = True` block runs inside both a segment and a subsegment |
| GCloudTracer.ScopePropagatesUserError | tests/unit/test_tracing_gcloud.py:205-259 | an error raised inside either scope leaves it unchanged, after one failed span is closed |
| UserOrdering.ParseSortField | app/services/user.py:68-75 | a `sort_by` is accepted exactly when it is email, username or id, and each of those selects the column of its own name |
| UserOrdering.ParseSortDir | app/services/user.py:77-82 | a `sort_type` is accepted exactly when it is asc or desc; asc selects ascending and desc descending order |
| UserOrdering.BeforeTotal | app/services/user.py:77-80 | any two users are ordered one way or the other, on each key and in each direction |
| UserOrdering.BeforeTransitive | app/services/user.py:77-80 | the order on each key and in each direction is transitive |
| UserOrdering.Insert | app/services/user.py:77-80 | inserting into a sorted list adds exactly that user and keeps the list sorted |
| UserOrdering.Sort | app/services/user.py:77-80 | the result is a permutation of its input, in the requested order |
| UserOrdering.SortKeepsMembers | app/services/user.py:77-96 | sorting keeps exactly the users it is given |
| UserService.IndexOf | app/services/user.py:40 | the first row with the id, or none exactly when no row has it |
| UserService.GetById | app/services/user.py:27-43 | 404 "User not found" exactly when no row has the id. Otherwise a stored row with that id |
| UserService.Find | app/services/user.py:129-149 | 404 exactly when no row has the id. Otherwise the response of a stored user with that id |
| UserService.Filter | app/services/user.py:84-94 | a user is kept exactly when it is stored and passes every given filter: the inclusive date range when both dates are given, and `LIKE '%x%'` on username and email. Each kept user appears as often as it is stored, and when every row passes the store comes back unchanged |
| UserService.LiteralFiltersSearchSubstrings | app/services/user.py:90-94 | with no `%` or `_` in the filter texts, the username and email filters are plain substring search |
| SqlLike.PercentMatchesAll | app/services/user.py:90-94 | a lone `%` matches every string |
| SqlLike.LiteralThenPercent | app/services/user.py:90-94 | `x%` with a wildcard-free `x` matches exactly the strings that start with `x` |
| SqlLike.LeadingPercent | app/services/user.py:90-94 | `%q` matches exactly when `q` matches some suffix |
| SqlLike.LiteralPatternIsSubstring | app/services/user.py:90-94 | `LIKE '%x%'` with a wildcard-free `x` holds exactly when `x` is a substring |
| SqlLike.UnderscoreFindsAbc | app/services/user.py:90-91 | the filter text `a_c` finds `abc`, because `_` matches any one character |
| SqlLike.UnderscoreIsLiteralToSubstringSearch | app/services/user.py:90-91 | plain substring search would not find `a_c` in `abc`, so `LIKE` differs from it |
| SqlLike.UnderscoreFindsJohnDotDoe | app/services/user.py:90-91 | the username filter `john_doe` finds the user `john.doe` |
| UserService.Window | app/services/user.py:96 | the rows from the offset, at most the limit of them, clamped to the end |
| UserService.FloorDiv | app/services/user.py:107 | Python's `//` by a positive divisor: the greatest multiple not above the dividend |
| UserService.Responses | app/services/user.py:98-104 | one response per row, in order, with every column but the password |
| UserService.ListPage | app/services/user.py:96-112 | for an accepted sort and a positive page size, the page holds the responses of the window at `(page-1)*size` of the filtered, sorted users. Total is the count of all users, last page is `(total-1)//size + 1`, first item is offset+1, and last item is `min(offset+size, total)` |
| UserService.All | app/services/user.py:65-117 | `None` exactly when the sort field or direction is rejected (the 400 is swallowed by the generic handler) or the page size is zero (the division fails). Otherwise it returns that page |
| UserService.LastPageIsCeiling | app/services/user.py:107 | `(total-1)//n + 1` is the ceiling of total/n, and 0 for no users |
| UserService.PageArithmetic | app/services/user.py:106-110 | on a listed page the last page is that ceiling, the last item never passes the total, and the page never holds more than its size |
| UserService.WindowOfSorted | app/services/user.py:96 | a window of a sorted listing is sorted and holds only listed users |
| UserService.PageShowsMatchingUsersInOrder | app/services/user.py:66-104 | every user on a page is stored and passes every filter, and the page is in the requested order |
| UserService.Total | app/services/user.py:120-127 | the count of all users: no filtered listing has more rows, and the unfiltered listing has exactly this many |
| UserService.TotalIgnoresFilters | app/services/user.py:120-127 | two listings of one store report the same total, the count of all users |
| UserService.Save | app/services/user.py:151-185 | 422 "User with this email already exists" exactly when the email is taken. Otherwise the user is appended with password `hashed_` plus the given one, and its response is returned |
| UserService.SaveThenFind | app/services/user.py:165-177 | after a save the new id is found with the given email and the prefixed password, and ids stay unique |
| UserService.SaveKeepsEmailsUnique | app/services/user.py:165-169 | a successful save keeps stored emails distinct |
| UserService.ApplyUpdate | app/services/user.py:203-207 | only supplied fields change, and a supplied password is stored behind the `hashed_` prefix |
| UserService.ApplyUpdateIdempotent | app/services/user.py:203-207 | applying an update twice equals applying it once |
| UserService.Update | app/services/user.py:190-217 | 404 exactly when no row has the id. Otherwise only that row changes, as the update says, and its response is returned |
| UserService.UpdateKeepsIdsUnique | app/services/user.py:201-207 | an update keeps ids unique |
| UserService.RemoveAt | app/services/user.py:237 | removing a row shortens the store by one, keeps the rows before it and moves the rows after it up by one |
| UserService.Delete | app/services/user.py:222-246 | 404 exactly when no row has the id. Otherwise that row is removed and its response returned |
| UserService.DeleteThenFind | app/services/user.py:235-246 | after a delete the id gives 404, exactly one row is gone, every other user remains, and ids stay unique |
| DynamoDB.Ddb | app/helpers/dynamodb.py:9-33 | an empty or missing table name is rejected with an error carrying that name. Otherwise the request is for exactly that table. The keys are service_name and region_name, plus endpoint_url exactly when DDB_TYPE is local. The service is dynamodb, and region and endpoint resolve from the argument, the setting, then the default |
| DynamoDB.RegionPrecedence | app/helpers/dynamodb.py:25 | the region is a truthy argument, else DDB_REGION, else ap-southeast-1 |
| DynamoDB.EndpointPrecedence | app/helpers/dynamodb.py:29-31 | the endpoint is a truthy argument, else DDB_ENDPOINT_URL, else http://localhost:8000 |
| DynamoDB.EndpointIgnoredUnlessLocal | app/helpers/dynamodb.py:28-31 | outside the local type the endpoint argument has no effect |

## Left out

- GCP clients (`gcp_logging.Client`, `CloudLoggingHandler`, `TraceServiceClient`, `patch_traces`) and `print` are foreign calls. They appear as a setup outcome, a capability value, printed lines and an output trace of sink calls.
- `random.random`, `inspect.stack`, `os.path.relpath` and the clock are inputs to the model, not computed by it.
- The timestamp's format is not modelled; it is an opaque non-empty text.
- Redaction.Sanitize: lower-casing maps only the characters Python's `str.lower()` turns into one ASCII letter (A to Z and the KELVIN SIGN); every other character stays as it is. Python lowers more characters than that, but only U+0130 (to `i` plus a combining dot) yields another ASCII letter, and that dot can never continue a sensitive word. So which names are sensitive agrees with Python, while the lower-cased text itself is not modelled for other characters.
- The rate and the draw are Dafny reals; IEEE float rounding is not modelled.
- Sampling.ParseDecimal: accepts exactly the unsigned decimals `digits[.digits]` and refuses every other text. Python's `float()` also accepts signs, exponents, `inf`, `nan`, underscores between digits, surrounding blanks, and non-ASCII decimal digits such as the Arabic-Indic `١.٥`; the model refuses those texts where Python would parse them.
- The fallback logger's namespace is a parameter, because the implementation file that fixes it is not part of this model.
- A sink that raises while writing is not modelled; the tests never exercise it.
- SQLAlchemy session mechanics (`query`, `commit`, `refresh`) are abstracted to a sequence of rows.
- The database's order of rows with equal sort keys is not modelled. The model keeps stored order for ties.
- The case sensitivity of `LIKE` depends on the database and is not modelled; characters compare exactly.
- UserService.Filter: `LIKE` is modelled with no escape character. Databases whose default escape is backslash (PostgreSQL, MySQL) read `\%` and `\_` in the filter text as literal characters; that is not modelled.
- UserOrdering.Sort: string order and equality are code-point order and equality, not the database collation. This covers `ORDER BY username` and `ORDER BY email`, and the duplicate-email check at `app/services/user.py:165` (UserService.Save) compares emails exactly.
- `created_at` is compared with the date bounds as text, and `strftime` formatting is not modelled; timestamps are stored as `YYYY-MM-DD HH:MM:SS` text.
- The 500 responses for `DatabaseError` are not modelled. This includes a database unique constraint rejecting an update to an email that another user has.
- UserService.All: the generic handler's `logging.error(e)` (app/services/user.py:116-117) on the rejected-sort and division-by-zero paths is not modelled; `All` returns only the `None` that follows it.
- UserService.All: requires `items_per_page >= 0`, and `page >= 1` whenever `items_per_page` is positive, because negative OFFSET and LIMIT behave differently across databases. With `items_per_page == 0` the offset is 0 for every page, so any page is accepted and gives `None`.
- UserService.ApplyUpdate: leaves `updated_at` as stored. A refresh of `updated_at` on commit would be declared on the ORM model, and the ORM model file (`app/models/user.py`) is not modelled.
- `update` treats a field as supplied when it is present; a field explicitly set to `None` is not modelled.
- `get_by_id` relies on the primary key, so the first row with an id is the only one. The uniqueness lemmas state this invariant.
- `app/helpers/environment.py` (pydantic settings, `.env` loading, caching, port coercion) is modelled as a map. Settings defaults are assumed already present in that map.
- `env(name, default)` is `getattr(settings, name, default)` (app/helpers/environment.py:104-106). A name that is not a settings field, such as `LOG_SAMPLE_RATE`, `APP_VERSION` or `DDB_ENDPOINT_URL`, therefore always gives the default under the real helper. The model reads every name from the map, as the tests do when they replace `env`.
- `config/storage.py`, `main.py`, `docs/source/conf.py` and `tests/unit/test_main.py` hold no logic of the modelled core.
- `app/exceptions` holds exception classes without behaviour. The one used is the `InvalidTableName` error variant.
- `boto3.resource(**kwargs).Table(name)` is not called; the model stops at the request it would receive.

=== FILE: caller_location.dfy ===
/** The logger's caller location (`_get_caller_location`): the first stack
    frame whose file lies under the project root, rendered as `relpath:line`,
    as `basename:line` when the relative path cannot be computed, and as
    `unknown:0` when no frame lies under the root. */
module CallerLocation {
  import opened Wrappers
  import opened Text

  /** One entry of the stack snapshot: a file name and a line number. */
  datatype Frame = Frame(filename: string, lineno: nat)

  /** `os.path.relpath(path, start)`; `None` stands for the call raising. */
  type RelPath = (string, string) -> Option<string>

  const Unknown := "unknown:0"

  predicate InRoot(f: Frame, root: string) {
    StartsWith(f.filename, root)
  }

  /** `k` is the first frame of the snapshot that lies under the root. */
  ghost predicate IsFirstInRoot(frames: seq<Frame>, root: string, k: int) {
    0 <= k < |frames| && InRoot(frames[k], root) && forall j | 0 <= j < k :: !InRoot(frames[j], root)
  }

  /** The file part of a frame's location: relative to the root, or the bare
      file name when the relative path cannot be computed. */
  function FilePart(f: Frame, root: string, relpath: RelPath): string {
    match relpath(f.filename, root)
    case Some(rel) => rel
    case None => Basename(f.filename)
  }

  function Render(f: Frame, root: string, relpath: RelPath): string {
    FilePart(f, root, relpath) + ":" + NatToString(f.lineno)
  }

  /** The location of the caller, walking the snapshot outward from the caller. */
  function Location(frames: seq<Frame>, root: string, relpath: RelPath): (loc: string)
    ensures (forall i | 0 <= i < |frames| :: !InRoot(frames[i], root)) ==> loc == Unknown
    ensures forall k | IsFirstInRoot(frames, root, k) :: loc == Render(frames[k], root, relpath)
    decreases |frames|
  {
    if |frames| == 0 then Unknown
    else if InRoot(frames[0], root) then Render(frames[0], root, relpath)
    else
      var loc := Location(frames[1..], root, relpath);
      assert forall k | IsFirstInRoot(frames, root, k) :: IsFirstInRoot(frames[1..], root, k - 1);
      loc
  }

  /** A frame under the root whose relative path fails is rendered with its
      bare file name, e.g. `<root>/app/test.py` at line 99 gives `test.py:99`. */
  lemma {:induction false} RelpathFailureGivesBasename(dir: string, name: string, line: nat,
                                                       root: string, relpath: RelPath)
    requires StartsWith(dir, root) && '/' !in name
    requires relpath(dir + "/" + name, root).None?
    ensures Location([Frame(dir + "/" + name, line)], root, relpath) == name + ":" + NatToString(line)
  {
    var f := Frame(dir + "/" + name, line);
    assert (dir + "/" + name)[..|root|] == dir[..|root|];
    assert IsFirstInRoot([f], root, 0);
    BasenameOfJoin(dir, name);
  }

  /** The logger test's frame `<root>/app/test.py` at line 99, with relpath
      failing, is located as `test.py:99`. */
  lemma TestFrameLocation(root: string, relpath: RelPath)
    requires relpath(root + "/app/test.py", root).None?
    ensures Location([Frame(root + "/app/test.py", 99)], root, relpath) == "test.py:99"
  {
    assert (root + "/app")[..|root|] == root;
    assert root + "/app" + "/" + "test.py" == root + "/app/test.py";
    RelpathFailureGivesBasename(root + "/app", "test.py", 99, root, relpath);
    assert NatToString(99) == "99";
  }

  /** Splitting any location on `:` gives exactly two parts, the second all
      digits, provided neither the file names nor the relative paths contain a colon. */
  lemma {:induction false} LocationHasOneColon(frames: seq<Frame>, root: string, relpath: RelPath)
    requires forall i | 0 <= i < |frames| :: ':' !in frames[i].filename
    requires forall i | 0 <= i < |frames| :: relpath(frames[i].filename, root).Some? ==>
                                             ':' !in relpath(frames[i].filename, root).value
    ensures |Split(Location(frames, root, relpath), ':')| == 2
    ensures IsDigits(Split(Location(frames, root, relpath), ':')[1])
    decreases |frames|
  {
    if |frames| == 0 {
      SplitAtFirstSeparator("unknown", ':', "0");
      assert Unknown == "unknown" + [':'] + "0";
      SplitWithoutSeparator("0", ':');
    } else if InRoot(frames[0], root) {
      var f := frames[0];
      var file := FilePart(f, root, relpath);
      if relpath(f.filename, root).None? {
        BasenameAddsNoCharacter(f.filename, ':');
      }
      var digits := NatToString(f.lineno);
      assert ':' !in digits by {
        forall i | 0 <= i < |digits|
          ensures digits[i] != ':'
        {
          assert IsDigit(digits[i]);
        }
      }
      SplitAtFirstSeparator(file, ':', digits);
      assert Render(f, root, relpath) == file + [':'] + digits;
      SplitWithoutSeparator(digits, ':');
    } else {
      LocationHasOneColon(frames[1..], root, relpath);
    }
  }
}

=== FILE: dynamodb.dfy ===
/** `ddb` in app/helpers/dynamodb.py: the validation of the table name and the
    keyword arguments handed to `boto3.resource`, stopping just before that
    call. */
module DynamoDB {
  import opened Wrappers
  import opened Text
  import opened Environment

  const ServiceName := "dynamodb"
  const DefaultRegion := "ap-southeast-1"
  const DefaultEndpoint := "http://localhost:8000"
  const InvalidTableNameMessage := "Table name must be a non-empty string"

  /** DynamoDBInvalidTableNameError: its message and the rejected name. */
  datatype DdbError = InvalidTableName(message: string, tableName: Option<string>)

  /** What `ddb` asks boto3 for: `boto3.resource(**kwargs).Table(table)`. */
  datatype ResourceRequest = ResourceRequest(kwargs: map<string, string>, table: string)

  /** The endpoint is overridden exactly when the environment says DynamoDB is local. */
  predicate IsLocal(env: Env) {
    Get(env, "DDB_TYPE") == Some("local")
  }

  /** `region_name or env("DDB_REGION", default)`. */
  function Region(regionName: Option<string>, env: Env): string {
    if IsTruthy(regionName) then regionName.value else Lookup(env, "DDB_REGION", DefaultRegion)
  }

  /** `endpoint_url or env("DDB_ENDPOINT_URL", default)`. */
  function Endpoint(endpointUrl: Option<string>, env: Env): string {
    if IsTruthy(endpointUrl) then endpointUrl.value else Lookup(env, "DDB_ENDPOINT_URL", DefaultEndpoint)
  }

  function Ddb(tableName: Option<string>, regionName: Option<string>, endpointUrl: Option<string>, env: Env)
    : (r: Result<ResourceRequest, DdbError>)
    // an empty or missing name is rejected, carrying that name
    ensures r.Failure? <==> !IsTruthy(tableName)
    ensures r.Failure? ==> r.error == InvalidTableName(InvalidTableNameMessage, tableName)
    // otherwise the table requested is the validated name
    ensures r.Success? ==> r.value.table == tableName.value && |r.value.table| > 0
    // and exactly these keys are passed to boto3
    ensures r.Success? ==>
              r.value.kwargs.Keys == {"service_name", "region_name"} + (if IsLocal(env) then {"endpoint_url"} else {})
    ensures r.Success? ==> r.value.kwargs["service_name"] == ServiceName
    ensures r.Success? ==> r.value.kwargs["region_name"] == Region(regionName, env)
    ensures r.Success? && IsLocal(env) ==> r.value.kwargs["endpoint_url"] == Endpoint(endpointUrl, env)
  {
    if !IsTruthy(tableName) then
      Failure(InvalidTableName(InvalidTableNameMessage, tableName))
    else
      var kwargs := map["service_name" := ServiceName, "region_name" := Region(regionName, env)];
      var kwargs := if IsLocal(env) then kwargs["endpoint_url" := Endpoint(endpointUrl, env)] else kwargs;
      Success(ResourceRequest(kwargs, tableName.value))
  }

  /** Region precedence: a non-empty argument, else the environment's value, else the default. */
  lemma RegionPrecedence(regionName: Option<string>, env: Env)
    ensures IsTruthy(regionName) ==> Region(regionName, env) == regionName.value
    ensures !IsTruthy(regionName) && "DDB_REGION" in env ==> Region(regionName, env) == env["DDB_REGION"]
    ensures !IsTruthy(regionName) && "DDB_REGION" !in env ==> Region(regionName, env) == DefaultRegion
  {}

  /** Endpoint precedence: a non-empty argument, else the environment's value, else the default. */
  lemma EndpointPrecedence(endpointUrl: Option<string>, env: Env)
    ensures IsTruthy(endpointUrl) ==> Endpoint(endpointUrl, env) == endpointUrl.value
    ensures !IsTruthy(endpointUrl) && "DDB_ENDPOINT_URL" in env ==> Endpoint(endpointUrl, env) == env["DDB_ENDPOINT_URL"]
    ensures !IsTruthy(endpointUrl) && "DDB_ENDPOINT_URL" !in env ==> Endpoint(endpointUrl, env) == DefaultEndpoint
  {}

  /** An endpoint argument only matters against a local DynamoDB: elsewhere the
      request does not depend on it. */
  lemma EndpointIgnoredUnlessLocal(tableName: Option<string>, regionName: Option<string>,
                                   e1: Option<string>, e2: Option<string>, env: Env)
    requires !IsLocal(env)
    ensures Ddb(tableName, regionName, e1, env) == Ddb(tableName, regionName, e2, env)
  {}
}

=== FILE: environment.dfy ===
/** The process environment as the application's `env(name, default)` helper
    sees it: a map from variable names to their (already resolved) string
    values, read with a caller-supplied default. */
module Environment {
  import opened Wrappers

  type Env = map<string, string>

  /** `env(name)`: the value when set, `None` otherwise. */
  function Get(env: Env, name: string): Option<string> {
    if name in env then Some(env[name]) else None
  }

  /** `env(name, default)`: the value when set, the default otherwise. */
  function Lookup(env: Env, name: string, default: string): string {
    Get(env, name).GetOr(default)
  }
}

=== FILE: gcloud_logger.dfy ===
/** GCloudLogger: construction (hard failure when the Cloud Logging library is
    missing, fallback channel when client setup raises), structured record
    assembly, and the six level methods behind the sampling gate. The sink (the
    standard-library logger the records are handed to) is an output trace. */
module GCloudLogger {
  import opened Wrappers
  import opened Text
  import opened Environment
  import opened Redaction
  import opened Sampling
  import opened CallerLocation

  const UnavailableMessage := "Google Cloud Logging dependencies not available"
  const SetupWarningPrefix := "Warning: Failed to setup Google Cloud Logging: "
  const FallbackNotice := "Falling back to standard logging..."
  const FallbackMarker := "gcloud_fallback"

  datatype Severity = DEBUG | INFO | WARNING | ERROR | CRITICAL {
    function Name(): string {
      match this
      case DEBUG => "DEBUG"
      case INFO => "INFO"
      case WARNING => "WARNING"
      case ERROR => "ERROR"
      case CRITICAL => "CRITICAL"
    }
  }

  /** The six public logging methods; each calls the same-named sink method. */
  datatype Method = Debug | Info | Warning | Error | Exception | Critical {
    function Severity(): Severity {
      match this
      case Debug => DEBUG
      case Info => INFO
      case Warning => WARNING
      case Error => ERROR
      case Exception => ERROR
      case Critical => CRITICAL
    }
  }

  /** Where records go: the Cloud Logging handler, or the named local fallback. */
  datatype Channel = CloudChannel | FallbackChannel(name: string)

  datatype Logger = Logger(serviceName: string, level: string, sampleRate: real,
                           projectRoot: string, channel: Channel)

  /** What setting up `gcp_logging.Client` and its handler does. */
  datatype ClientSetup = SetupSucceeds | SetupRaises(message: string)

  datatype ConstructionError = ImportError(message: string) | ValueError(message: string)

  /** A constructed logger and the lines it printed to the console on the way. */
  datatype Constructed = Constructed(logger: Logger, printed: seq<string>)

  /** The fallback channel's name, `<namespace>.gcloud_fallback.<service>`. */
  function FallbackName(namespace: string, serviceName: string): (name: string)
    ensures Contains(name, FallbackMarker)
  {
    var name := namespace + "." + FallbackMarker + "." + serviceName;
    assert name[|namespace| + 1..|namespace| + 1 + |FallbackMarker|] == FallbackMarker;
    assert OccursAt(name, FallbackMarker, |namespace| + 1);
    OccurrenceIsContained(name, FallbackMarker, |namespace| + 1);
    name
  }

  /** `GCloudLogger(service_name, level, sample_rate)`. */
  function NewLogger(available: bool, serviceName: string, level: string, sampleRate: Option<real>,
                     env: Env, setup: ClientSetup, namespace: string, projectRoot: string)
    : (r: Result<Constructed, ConstructionError>)
    // a missing library is a hard ImportError, whatever else holds
    ensures !available ==> r == Failure(ImportError(UnavailableMessage))
    // an unreadable LOG_SAMPLE_RATE is only an error when the setting is consulted
    ensures available && EffectiveRate(sampleRate, env).None? ==> r.Failure? && r.error.ValueError?
    ensures r.Success? <==> available && EffectiveRate(sampleRate, env).Some?
    // the logger keeps what it was given
    ensures r.Success? ==> r.value.logger.serviceName == serviceName && r.value.logger.level == level
                           && r.value.logger.projectRoot == projectRoot
    // the rate in force is the argument when truthy, else the parsed setting
    ensures r.Success? ==> r.value.logger.sampleRate == EffectiveRate(sampleRate, env).value
    ensures r.Success? && sampleRate.Some? && sampleRate.value != 0.0 ==>
              r.value.logger.sampleRate == sampleRate.value
    // a failing client setup falls back, announcing it on the console
    ensures r.Success? && setup.SetupRaises? ==>
              && r.value.logger.channel == FallbackChannel(FallbackName(namespace, serviceName))
              && Contains(r.value.logger.channel.name, FallbackMarker)
              && r.value.printed == [SetupWarningPrefix + setup.message, FallbackNotice]
    ensures r.Success? && setup.SetupSucceeds? ==> r.value.logger.channel == CloudChannel && r.value.printed == []
  {
    if !available then Failure(ImportError(UnavailableMessage))
    else
      match EffectiveRate(sampleRate, env)
      case None =>
        Failure(ValueError("could not convert string to float: '" + Lookup(env, RateVariable, DefaultRateText) + "'"))
      case Some(rate) =>
        match setup
        case SetupSucceeds =>
          Success(Constructed(Logger(serviceName, level, rate, projectRoot, CloudChannel), []))
        case SetupRaises(message) =>
          var fallback := FallbackChannel(FallbackName(namespace, serviceName));
          Success(Constructed(Logger(serviceName, level, rate, projectRoot, fallback),
                              [SetupWarningPrefix + message, FallbackNotice]))
  }

  /** A logger given no truthy rate, while `LOG_SAMPLE_RATE` holds text that is
      not plain decimal notation, is not built: construction fails with a
      `ValueError`. */
  lemma UnparsableRateSettingFails(serviceName: string, level: string, sampleRate: Option<real>, env: Env,
                                   setup: ClientSetup, namespace: string, projectRoot: string)
    requires sampleRate.None? || sampleRate.value == 0.0
    requires Get(env, RateVariable).Some? && !IsDecimalText(Get(env, RateVariable).value)
    ensures var r := NewLogger(true, serviceName, level, sampleRate, env, setup, namespace, projectRoot);
            r.Failure? && r.error.ValueError?
  {
    assert EffectiveRate(sampleRate, env) == ParseDecimal(Get(env, RateVariable).value);
  }

  // ---------------------------------------------------------------------
  // Structured records

  const ReservedKeys: set<string> := {"severity", "service", "message", "environment", "version", "timestamp", "location"}

  /** A setting as the `env(name)` helper returns it: its text, or `None`. */
  function Setting(env: Env, name: string): Value {
    match Get(env, name)
    case Some(v) => Str(v)
    case None => Null
  }

  /** `_create_structured_log(severity, message, extra)`: the built-in fields,
      then the sanitised extra fields, which override a built-in of the same name. */
  function StructuredLog(logger: Logger, severity: Severity, message: string, extra: Option<Fields>,
                         env: Env, location: string, timestamp: string): (rec: Fields)
    requires |timestamp| > 0
    ensures rec.Keys == ReservedKeys + Sanitize(extra).Keys
    ensures forall k | k in Sanitize(extra) :: rec[k] == Sanitize(extra)[k]
    ensures forall k | k in rec && k !in ReservedKeys && IsSensitive(k) :: rec[k] == Str(Marker)
    ensures "severity" !in Sanitize(extra) ==> rec["severity"] == Str(severity.Name())
    ensures "service" !in Sanitize(extra) ==> rec["service"] == Str(logger.serviceName)
    ensures "message" !in Sanitize(extra) ==> rec["message"] == Str(message)
    ensures "environment" !in Sanitize(extra) ==> rec["environment"] == Setting(env, "APP_ENVIRONMENT")
    ensures "version" !in Sanitize(extra) ==> rec["version"] == Setting(env, "APP_VERSION")
    ensures "timestamp" !in Sanitize(extra) ==> rec["timestamp"] == Str(timestamp)
    ensures "location" !in Sanitize(extra) ==> rec["location"] == Str(location)
  {
    var base := map[
      "severity" := Str(severity.Name()),
      "service" := Str(logger.serviceName),
      "message" := Str(message),
      "environment" := Setting(env, "APP_ENVIRONMENT"),
      "version" := Setting(env, "APP_VERSION"),
      "timestamp" := Str(timestamp),
      "location" := Str(location)];
    base + Sanitize(extra)
  }

  /** The logger test's record: `INFO`, "Test message", `{"user_id": 123}`
      under APP_ENVIRONMENT=test and APP_VERSION=1.0.0. */
  lemma StructuredLogExample(logger: Logger, env: Env, location: string, timestamp: string)
    requires logger.serviceName == "test-service" && |timestamp| > 0
    requires Get(env, "APP_ENVIRONMENT") == Some("test") && Get(env, "APP_VERSION") == Some("1.0.0")
    ensures var rec := StructuredLog(logger, INFO, "Test message", Some(map["user_id" := Int(123)]),
                                     env, location, timestamp);
            && rec["severity"] == Str("INFO") && rec["service"] == Str("test-service")
            && rec["message"] == Str("Test message") && rec["environment"] == Str("test")
            && rec["version"] == Str("1.0.0") && rec["user_id"] == Int(123)
            && "timestamp" in rec && "location" in rec
  {
    IdentityFieldsArePlain();
  }

  /** The logger test's extra dict: credentials redacted, identity fields kept. */
  lemma SanitizeExample()
    ensures var extra := map["username" := Str("john"), "password" := Str("secret123"),
                             "token" := Str("xyz789"), "api_key" := Str("abc456"),
                             "email" := Str("john@example.com")];
            var s := Sanitize(Some(extra));
            && s["username"] == Str("john") && s["email"] == Str("john@example.com")
            && s["password"] == Str(Marker) && s["token"] == Str(Marker) && s["api_key"] == Str(Marker)
    ensures Sanitize(None) == map[] && Sanitize(Some(map[])) == map[]
  {
    CredentialNamesAreSensitive();
    IdentityFieldsArePlain();
  }

  // ---------------------------------------------------------------------
  // Emission

  /** One call of a sink method on the channel, with the record it was handed. */
  datatype SinkCall = SinkCall(channel: Channel, kind: Method, message: string, record: Fields)

  /** What a logging call reads from the process besides its arguments: the
      settings, the stack snapshot, the relative-path function and the clock. */
  datatype Runtime = Runtime(env: Env, frames: seq<Frame>, relpath: RelPath, timestamp: string)

  predicate ValidRuntime(rt: Runtime) {
    |rt.timestamp| > 0
  }

  /** One call of `info`, `warning`, `error`, `debug`, `exception` or `critical`. */
  datatype LogCall = LogCall(kind: Method, message: string, extra: Option<Fields>)

  /** The record a sampled call hands to the sink. */
  function RecordFor(logger: Logger, call: LogCall, rt: Runtime): Fields
    requires ValidRuntime(rt)
  {
    var location := Location(rt.frames, logger.projectRoot, rt.relpath);
    StructuredLog(logger, call.kind.Severity(), call.message, call.extra, rt.env, location, rt.timestamp)
  }

  /** A logging call: the sampling gate first, and only when it passes a record
      is built and handed to the same-named sink method. */
  function Log(logger: Logger, call: LogCall, draw: real, rt: Runtime): (out: seq<SinkCall>)
    requires IsDraw(draw) && ValidRuntime(rt)
    ensures |out| <= 1
    ensures |out| == 1 <==> draw < logger.sampleRate
    ensures |out| == 1 ==> out[0] == SinkCall(logger.channel, call.kind, call.message, RecordFor(logger, call, rt))
  {
    if !ShouldSample(logger.sampleRate, draw) then []
    else [SinkCall(logger.channel, call.kind, call.message, RecordFor(logger, call, rt))]
  }

  /** The sampling gate runs before anything is read from the runtime: an
      unsampled call writes nothing, whatever the stack, settings or clock. */
  lemma UnsampledCallReadsNothing(logger: Logger, call: LogCall, draw: real, rt1: Runtime, rt2: Runtime)
    requires IsDraw(draw) && ValidRuntime(rt1) && ValidRuntime(rt2)
    requires !(draw < logger.sampleRate)
    ensures Log(logger, call, draw, rt1) == Log(logger, call, draw, rt2) == []
  {
  }

  predicate AllDraws(draws: seq<real>) {
    forall i | 0 <= i < |draws| :: IsDraw(draws[i])
  }

  /** A sequence of logging calls, each with its own draw. */
  function LogAll(logger: Logger, calls: seq<LogCall>, draws: seq<real>, rt: Runtime): (out: seq<SinkCall>)
    requires |draws| == |calls| && AllDraws(draws) && ValidRuntime(rt)
    ensures |out| <= |calls|
    decreases |calls|
  {
    if |calls| == 0 then []
    else Log(logger, calls[0], draws[0], rt) + LogAll(logger, calls[1..], draws[1..], rt)
  }

  /** At an effective rate of zero no call reaches the sink. */
  lemma {:induction false} ZeroRateWritesNothing(logger: Logger, calls: seq<LogCall>, draws: seq<real>, rt: Runtime)
    requires |draws| == |calls| && AllDraws(draws) && ValidRuntime(rt)
    requires logger.sampleRate <= 0.0
    ensures LogAll(logger, calls, draws, rt) == []
    decreases |calls|
  {
    if |calls| > 0 {
      ZeroRateWritesNothing(logger, calls[1..], draws[1..], rt);
    }
  }

  /** A logger built with no rate argument while `LOG_SAMPLE_RATE` is "0.0"
      hands none of its calls to the sink, whatever the draws. */
  lemma {:induction false} ZeroRateSettingSilencesLogger(level: string, env: Env, setup: ClientSetup, namespace: string,
                                      projectRoot: string, calls: seq<LogCall>, draws: seq<real>, rt: Runtime)
    requires Get(env, RateVariable) == Some("0.0")
    requires |draws| == |calls| && AllDraws(draws) && ValidRuntime(rt)
    ensures var r := NewLogger(true, "test-service", level, None, env, setup, namespace, projectRoot);
            r.Success? && LogAll(r.value.logger, calls, draws, rt) == []
  {
    ZeroRateSettingNeverSamples(None, env, 0.0);
    var r := NewLogger(true, "test-service", level, None, env, setup, namespace, projectRoot);
    ZeroRateWritesNothing(r.value.logger, calls, draws, rt);
  }

  /** The five calls of the zero-rate logger test leave the sink untouched. */
  lemma {:induction false} ZeroRateTestCallsWriteNothing(level: string, env: Env, setup: ClientSetup, namespace: string,
                                      projectRoot: string, draws: seq<real>, rt: Runtime)
    requires Get(env, RateVariable) == Some("0.0")
    requires |draws| == 5 && AllDraws(draws) && ValidRuntime(rt)
    ensures var r := NewLogger(true, "test-service", level, None, env, setup, namespace, projectRoot);
            var calls := [LogCall(Info, "Info message", None), LogCall(Warning, "Warning message", None),
                          LogCall(Error, "Error message", None), LogCall(Debug, "Debug message", None),
                          LogCall(Exception, "Exception message", None)];
            r.Success? && LogAll(r.value.logger, calls, draws, rt) == []
  {
    var calls := [LogCall(Info, "Info message", None), LogCall(Warning, "Warning message", None),
                  LogCall(Error, "Error message", None), LogCall(Debug, "Debug message", None),
                  LogCall(Exception, "Exception message", None)];
    ZeroRateSettingSilencesLogger(level, env, setup, namespace, projectRoot, calls, draws, rt);
  }

  /** At full rate every call reaches the same-named sink method, in order. */
  lemma {:induction false} FullRateWritesEach(logger: Logger, calls: seq<LogCall>, draws: seq<real>, rt: Runtime)
    requires |draws| == |calls| && AllDraws(draws) && ValidRuntime(rt)
    requires logger.sampleRate >= 1.0
    ensures |LogAll(logger, calls, draws, rt)| == |calls|
    ensures forall i | 0 <= i < |calls| ::
              LogAll(logger, calls, draws, rt)[i] ==
              SinkCall(logger.channel, calls[i].kind, calls[i].message, RecordFor(logger, calls[i], rt))
    decreases |calls|
  {
    if |calls| > 0 {
      FullRateWritesEach(logger, calls[1..], draws[1..], rt);
      var out := LogAll(logger, calls, draws, rt);
      assert out == Log(logger, calls[0], draws[0], rt) + LogAll(logger, calls[1..], draws[1..], rt);
      forall i | 0 <= i < |calls|
        ensures out[i] == SinkCall(logger.channel, calls[i].kind, calls[i].message, RecordFor(logger, calls[i], rt))
      {
        if i > 0 {
          assert calls[i] == calls[1..][i - 1];
        }
      }
    }
  }
}

=== FILE: gcloud_tracer.dfy ===
/** GCloudTracer: construction, the `capture_lambda_handler` and
    `capture_method` decorators, and the `create_segment` /
    `create_subsegment` scopes. Reporting to the trace client is best-effort:
    whether the client patches traces, lacks `patch_traces`, or raises, the
    wrapped code's outcome is returned unchanged. */
module GCloudTracer {
  import opened Wrappers

  const UnavailableMessage := "Google Cloud Tracing dependencies not available"

  /** What the trace client does when asked to report: it patches traces,
      it has no `patch_traces` at all, or the call raises. */
  datatype Capability = Ok | Absent | Raises(message: string)

  /** The result of the best-effort report step; never an error to the caller. */
  datatype Report = Patched | Skipped | Discarded(message: string)

  /** A tracer and its trace client. The decorators and scopes report through
      the client, so there the client is described by its `Capability`. */
  datatype Tracer<C> = Tracer(serviceName: string, client: C)

  datatype ImportError = ImportError(message: string)

  /** `GCloudTracer(service_name)`, with the client `TraceServiceClient()` built. */
  function NewTracer<C>(available: bool, serviceName: string, client: C): (r: Result<Tracer<C>, ImportError>)
    ensures !available <==> r.Failure?
    ensures r.Failure? ==> r.error.message == UnavailableMessage
    ensures r.Success? ==> r.value.serviceName == serviceName && r.value.client == client
  {
    if available then Success(Tracer(serviceName, client)) else Failure(ImportError(UnavailableMessage))
  }

  /** The report step: patch when the client can, skip when it cannot, and
      swallow whatever the client raises. */
  function ReportWith(cap: Capability): (r: Report)
    ensures r.Patched? <==> cap.Ok?
    ensures r.Skipped? <==> cap.Absent?
    ensures cap.Raises? ==> r == Discarded(cap.message)
  {
    match cap
    case Ok => Patched
    case Absent => Skipped
    case Raises(message) => Discarded(message)
  }

  /** One traced invocation: the wrapped code's outcome and the report made after it. */
  datatype Traced<T, E> = Traced(outcome: Result<T, E>, report: Report)

  /** A decorated call: the wrapped function runs, the tracer then tries to
      report to the trace client, and the caller gets back the wrapped
      function's own return value or exception. */
  function Invoke<T, E>(cap: Capability, outcome: Result<T, E>): (t: Traced<T, E>)
    ensures t.outcome == outcome
    ensures t.report == ReportWith(cap)
  {
    var report := ReportWith(cap);
    Traced(outcome, report)
  }

  /** `@tracer.capture_lambda_handler`: the decorated handler of `(event, context)`,
      reporting through the tracer's own client. */
  function CaptureLambdaHandler<Ev(!new), Cx(!new), T, E>(tracer: Tracer<Capability>, handler: (Ev, Cx) -> Result<T, E>)
    : (wrapped: (Ev, Cx) -> Result<T, E>)
    ensures forall ev, cx :: wrapped(ev, cx) == handler(ev, cx)
  {
    (ev, cx) => Invoke(tracer.client, handler(ev, cx)).outcome
  }

  /** `@tracer.capture_method`: the decorated method receives `self` and its
      positional and keyword arguments exactly as given. */
  function CaptureMethod<S(!new), A(!new), T, E>(tracer: Tracer<Capability>, m: (S, A) -> Result<T, E>)
    : (wrapped: (S, A) -> Result<T, E>)
    ensures forall self, args :: wrapped(self, args) == m(self, args)
  {
    (self, args) => Invoke(tracer.client, m(self, args)).outcome
  }

  /** The decorators' results do not depend on what the tracers' trace clients do. */
  lemma CaptureIgnoresCapability<Ev(!new), Cx(!new), S(!new), A(!new), T, E>(
    t1: Tracer<Capability>, t2: Tracer<Capability>,
    handler: (Ev, Cx) -> Result<T, E>, ev: Ev, cx: Cx,
    m: (S, A) -> Result<T, E>, self: S, args: A)
    ensures CaptureLambdaHandler(t1, handler)(ev, cx) == CaptureLambdaHandler(t2, handler)(ev, cx)
    ensures CaptureMethod<S, A, T, E>(t1, m)(self, args) == CaptureMethod<S, A, T, E>(t2, m)(self, args)
  {
  }

  // ---------------------------------------------------------------------
  // Segments

  datatype ScopeKind = Segment | Subsegment

  /** A closed segment as reported: its kind, name, metadata and whether the
      enclosed code raised. */
  datatype Span = Span(kind: ScopeKind, name: string, metadata: map<string, string>, failed: bool)

  /** A scope's run: the program state after the enclosed code, its outcome,
      and the spans closed (with the report made for each). */
  datatype ScopeRun<St, T, E> = ScopeRun(state: St, outcome: Result<T, E>, closed: seq<(Span, Report)>)

  /** The enclosed code of a `with` block: it runs from a program state to a
      new state and an outcome (a value, or a raised error). */
  type Body<!St, T, E> = St -> (St, Result<T, E>)

  /** A `with` scope: the span is opened, the body runs, and on either exit
      path the span is closed and reported once before the body's outcome is
      returned or re-raised. */
  function Scope<St, T, E>(kind: ScopeKind, name: string, metadata: Option<map<string, string>>,
                           tracer: Tracer<Capability>, body: Body<St, T, E>, st: St): (r: ScopeRun<St, T, E>)
    ensures (r.state, r.outcome) == body(st)
    ensures |r.closed| == 1
    ensures r.closed[0].0.name == name && r.closed[0].0.kind == kind
    ensures r.closed[0].0.failed <==> body(st).1.Failure?
    ensures r.closed[0].1 == ReportWith(tracer.client)
  {
    var (after, outcome) := body(st);
    var span := Span(kind, name, metadata.GetOr(map[]), outcome.Failure?);
    ScopeRun(after, outcome, [(span, ReportWith(tracer.client))])
  }

  /** `with tracer.create_segment(name, metadata)`. */
  function CreateSegment<St, T, E>(name: string, metadata: Option<map<string, string>>, tracer: Tracer<Capability>,
                                   body: Body<St, T, E>, st: St): (r: ScopeRun<St, T, E>)
    ensures (r.state, r.outcome) == body(st) && |r.closed| == 1
    ensures r.closed[0].0.kind == Segment && r.closed[0].0.name == name
    ensures metadata.Some? ==> r.closed[0].0.metadata == metadata.value
  {
    Scope(Segment, name, metadata, tracer, body, st)
  }

  /** `with tracer.create_subsegment(name)`. */
  function CreateSubsegment<St, T, E>(name: string, tracer: Tracer<Capability>, body: Body<St, T, E>, st: St)
    : (r: ScopeRun<St, T, E>)
    ensures (r.state, r.outcome) == body(st) && |r.closed| == 1
    ensures r.closed[0].0.kind == Subsegment && r.closed[0].0.name == name
  {
    Scope(Subsegment, name, None, tracer, body, st)
  }

  /** The tracer test's block `executed = True` runs inside either scope. */
  lemma ScopesRunTheirBody(tracer: Tracer<Capability>)
    ensures CreateSegment<bool, (), string>("test-segment", Some(map["key" := "value"]), tracer,
                                            executed => (true, Success(())), false).state
    ensures CreateSubsegment<bool, (), string>("sub-segment", tracer, executed => (true, Success(())), false).state
  {
  }

  /** A user error raised inside a segment or subsegment leaves it unchanged,
      after the span was closed once and marked as failed. */
  lemma ScopePropagatesUserError<St, T, E>(name: string, tracer: Tracer<Capability>, e: E, st: St)
    ensures var seg := CreateSegment<St, T, E>(name, None, tracer, s => (s, Failure(e)), st);
            seg.outcome == Failure(e) && |seg.closed| == 1 && seg.closed[0].0.failed
    ensures var sub := CreateSubsegment<St, T, E>(name, tracer, s => (s, Failure(e)), st);
            sub.outcome == Failure(e) && |sub.closed| == 1 && sub.closed[0].0.failed
  {
  }
}

=== FILE: like.dfy ===
/** SQL `LIKE` pattern matching, as the listing's username and email filters
    use it (`LIKE '%x%'` with the filter text spliced in unescaped). */
module SqlLike {
  import opened Text

  /** `s LIKE p` with no escape character: `%` matches any run of characters
      (the empty one included), `_` matches exactly one character, and every
      other character matches itself. */
  predicate Like(s: string, p: string)
    decreases |s| + |p|
  {
    if |p| == 0 then |s| == 0
    else if p[0] == '%' then Like(s, p[1..]) || (|s| > 0 && Like(s[1..], p))
    else |s| > 0 && (p[0] == '_' || p[0] == s[0]) && Like(s[1..], p[1..])
  }

  /** A pattern text with no wildcard in it. */
  predicate IsLiteral(x: string) {
    '%' !in x && '_' !in x
  }

  /** The filter `column LIKE '%x%'`. */
  predicate ContainsPattern(s: string, x: string) {
    Like(s, "%" + x + "%")
  }

  /** A lone `%` matches every string. */
  lemma {:induction false} PercentMatchesAll(s: string)
    ensures Like(s, "%")
    decreases |s|
  {
    assert "%"[1..] == "";
    if |s| > 0 {
      PercentMatchesAll(s[1..]);
    }
  }

  /** `x%` with a literal `x` matches exactly the strings starting with `x`. */
  lemma {:induction false} LiteralThenPercent(s: string, x: string)
    requires IsLiteral(x)
    ensures Like(s, x + "%") <==> StartsWith(s, x)
    decreases |x|
  {
    if |x| == 0 {
      assert x + "%" == "%";
      PercentMatchesAll(s);
    } else {
      var p := x + "%";
      assert p[0] == x[0] && p[1..] == x[1..] + "%";
      assert x[0] != '%' && x[0] != '_';
      assert IsLiteral(x[1..]) by {
        assert forall c | c in x[1..] :: c in x;
      }
      if |s| > 0 {
        LiteralThenPercent(s[1..], x[1..]);
        if |x| <= |s| {
          assert s[..|x|] == [s[0]] + s[1..][..|x| - 1];
          assert x == [x[0]] + x[1..];
        }
      }
    }
  }

  /** A leading `%` lets the rest of the pattern match any suffix. */
  lemma {:induction false} LeadingPercent(s: string, q: string)
    ensures Like(s, "%" + q) <==> exists i | 0 <= i <= |s| :: Like(s[i..], q)
    decreases |s|
  {
    var p := "%" + q;
    assert p[0] == '%' && p[1..] == q;
    assert s[0..] == s;
    if |s| > 0 {
      LeadingPercent(s[1..], q);
      if Like(s, p) && !Like(s, q) {
        var i :| 0 <= i <= |s| - 1 && Like(s[1..][i..], q);
        assert s[1..][i..] == s[i + 1..];
      }
      if exists i | 0 <= i <= |s| :: Like(s[i..], q) {
        var i :| 0 <= i <= |s| && Like(s[i..], q);
        if i > 0 {
          assert s[1..][i - 1..] == s[i..];
        }
      }
    }
  }

  /** Without wildcards in the filter text, `LIKE '%x%'` is substring search. */
  lemma LiteralPatternIsSubstring(s: string, x: string)
    requires IsLiteral(x)
    ensures ContainsPattern(s, x) <==> Contains(s, x)
  {
    assert "%" + x + "%" == "%" + (x + "%");
    LeadingPercent(s, x + "%");
    ContainsIffOccurs(s, x);
    if ContainsPattern(s, x) {
      var i :| 0 <= i <= |s| && Like(s[i..], x + "%");
      LiteralThenPercent(s[i..], x);
      assert s[i..][..|x|] == s[i..i + |x|];
      assert OccursAt(s, x, i);
    }
    if Contains(s, x) {
      var i :| OccursAt(s, x, i);
      assert s[i..][..|x|] == s[i..i + |x|];
      LiteralThenPercent(s[i..], x);
    }
  }

  /** The filter text's `_` stands for any one character: `a_c` finds `abc`. */
  lemma UnderscoreFindsAbc()
    ensures ContainsPattern("abc", "a_c")
  {
    var s := "abc";
    assert "%" + "a_c" + "%" == "%a_c%";
    PercentMatchesAll(s[3..]);
    assert Like(s[2..], "c%") by { assert s[2..][0] == 'c' && s[2..][1..] == s[3..] && "c%"[1..] == "%"; }
    assert Like(s[1..], "_c%") by { assert s[1..][1..] == s[2..] && "_c%"[1..] == "c%"; }
    assert Like(s, "a_c%") by { assert s[0] == 'a' && "a_c%"[1..] == "_c%"; }
    assert Like(s, "%a_c%") by { assert "%a_c%"[1..] == "a_c%"; }
  }

  /** Substring search does not find `a_c` in `abc`: `_` is only a wildcard to `LIKE`. */
  lemma UnderscoreIsLiteralToSubstringSearch()
    ensures !Contains("abc", "a_c")
  {
    assert !StartsWith("abc", "a_c") by { assert "abc"[..3][1] != "a_c"[1]; }
    assert "abc"[1..] == "bc" && "bc"[1..] == "c" && "c"[1..] == "";
    assert !Contains("bc", "a_c");
  }

  /** The filter `john_doe` also finds the username `john.doe`. */
  lemma UnderscoreFindsJohnDotDoe()
    ensures ContainsPattern("john.doe", "john_doe")
  {
    var s := "john.doe";
    var q := "john_doe%";
    assert "%" + "john_doe" + "%" == "%" + q;
    PercentMatchesAll(s[8..]);
    assert Like(s[7..], q[7..]) by { assert s[7..][1..] == s[8..] && q[7..][1..] == q[8..]; }
    assert Like(s[6..], q[6..]) by { assert s[6..][1..] == s[7..] && q[6..][1..] == q[7..]; }
    assert Like(s[5..], q[5..]) by { assert s[5..][1..] == s[6..] && q[5..][1..] == q[6..]; }
    assert Like(s[4..], q[4..]) by { assert s[4..][1..] == s[5..] && q[4..][1..] == q[5..]; }
    assert Like(s[3..], q[3..]) by { assert s[3..][1..] == s[4..] && q[3..][1..] == q[4..]; }
    assert Like(s[2..], q[2..]) by { assert s[2..][1..] == s[3..] && q[2..][1..] == q[3..]; }
    assert Like(s[1..], q[1..]) by { assert s[1..][1..] == s[2..] && q[1..][1..] == q[2..]; }
    assert Like(s, q) by { assert s[0] == q[0]; }
    assert Like(s, "%" + q) by { assert ("%" + q)[1..] == q; }
  }
}

=== FILE: redaction.dfy ===
/** The logger's redaction of the caller's extra fields (`_sanitize_extra_data`):
    a field whose name, lower-cased as `str.lower()` does, contains a sensitive
    word has its value replaced by a fixed marker; every other field passes
    through. */
module Redaction {
  import opened Wrappers
  import opened Text

  /** The JSON-like values a log record's fields can hold. */
  datatype Value = Str(s: string) | Int(i: int) | Real(r: real) | Bool(b: bool) | Null

  /** A set of named fields, as a Python dict with string keys. */
  type Fields = map<string, Value>

  const Marker := "[REDACTED]"

  /** The words that mark a field name as sensitive. */
  const SensitiveWords: seq<string> := ["password", "token", "api_key", "secret"]

  predicate IsSensitive(name: string) {
    exists w | w in SensitiveWords :: Contains(Lower(name), w)
  }

  /** `_sanitize_extra_data(extra)`; `None` is treated as an empty dict. */
  function Sanitize(extra: Option<Fields>): (r: Fields)
    ensures extra.None? ==> r == map[]
    ensures extra.Some? ==> r.Keys == extra.value.Keys
    ensures forall k | k in r && IsSensitive(k) :: r[k] == Str(Marker)
    ensures forall k | k in r && !IsSensitive(k) :: r[k] == extra.value[k]
  {
    match extra
    case None => map[]
    case Some(fields) => map k | k in fields :: if IsSensitive(k) then Str(Marker) else fields[k]
  }

  /** Sanitising an already sanitised dict changes nothing. */
  lemma SanitizeIdempotent(extra: Option<Fields>)
    ensures Sanitize(Some(Sanitize(extra))) == Sanitize(extra)
  {
  }

  /** No value other than the marker survives under a sensitive name, and the
      values under other names are exactly the caller's. */
  lemma SanitizeKeepsOnlyPlainValues(extra: Fields, k: string)
    requires k in extra
    ensures Sanitize(Some(extra))[k] == extra[k] || Sanitize(Some(extra))[k] == Str(Marker)
    ensures Sanitize(Some(extra))[k] != extra[k] ==> IsSensitive(k)
  {
  }

  /** The field names the logger test redacts are sensitive, in any case. */
  lemma CredentialNamesAreSensitive()
    ensures IsSensitive("password") && IsSensitive("token") && IsSensitive("api_key")
    ensures IsSensitive("ACCESS_TOKEN")
  {
    assert Lower("password") == "password";
    assert OccursAt("password", "password", 0);
    OccurrenceIsContained("password", "password", 0);
    assert Lower("token") == "token";
    assert OccursAt("token", "token", 0);
    OccurrenceIsContained("token", "token", 0);
    assert Lower("api_key") == "api_key";
    assert OccursAt("api_key", "api_key", 0);
    OccurrenceIsContained("api_key", "api_key", 0);
    assert Lower("ACCESS_TOKEN") == "access_token";
    assert OccursAt("access_token", "token", 7);
    OccurrenceIsContained("access_token", "token", 7);
  }

  /** Lower-casing is Python's, not only ASCII's: the KELVIN SIGN folds to `k`,
      so `API_\u212AEY` names an API key too. */
  lemma KelvinSignFoldsToK()
    ensures IsSensitive("API_\U{212A}EY")
  {
    assert Lower("API_\U{212A}EY") == "api_key";
    assert OccursAt("api_key", "api_key", 0);
    OccurrenceIsContained("api_key", "api_key", 0);
  }

  /** A name missing one letter of every sensitive word is plain. */
  lemma PlainWhenLettersMissing(name: string)
    requires 'p' !in Lower(name) && 'k' !in Lower(name) && 'c' !in Lower(name)
    ensures !IsSensitive(name)
  {
    forall w | w in SensitiveWords
      ensures !Contains(Lower(name), w)
    {
      if Contains(Lower(name), w) {
        if w == "password" {
          assert w[0] == 'p';
          ContainedCharsOccur(Lower(name), w, 'p');
        } else if w == "token" {
          assert w[2] == 'k';
          ContainedCharsOccur(Lower(name), w, 'k');
        } else if w == "api_key" {
          assert w[4] == 'k';
          ContainedCharsOccur(Lower(name), w, 'k');
        } else {
          assert w == "secret" && w[2] == 'c';
          ContainedCharsOccur(Lower(name), w, 'c');
        }
      }
    }
  }

  /** The identity fields the logger test keeps in clear are not sensitive. */
  lemma IdentityFieldsArePlain()
    ensures !IsSensitive("username") && !IsSensitive("email") && !IsSensitive("user_id")
  {
    assert Lower("username") == "username";
    PlainWhenLettersMissing("username");
    assert Lower("email") == "email";
    PlainWhenLettersMissing("email");
    assert Lower("user_id") == "user_id";
    PlainWhenLettersMissing("user_id");
  }
}

=== FILE: sampling.dfy ===
/** The logger's sampling gate (`_should_sample_log`) and the resolution of
    its rate from the constructor argument or the `LOG_SAMPLE_RATE` setting. */
module Sampling {
  import opened Wrappers
  import opened Text
  import opened Environment

  const RateVariable := "LOG_SAMPLE_RATE"
  const DefaultRateText := "1.0"

  /** A uniform draw from `random.random()`, which lies in [0, 1). */
  predicate IsDraw(draw: real) {
    0.0 <= draw < 1.0
  }

  /** The gate: full rate samples without drawing, a rate of zero or less never
      samples, anything between compares the draw against the rate. */
  function ShouldSample(rate: real, draw: real): (sampled: bool)
    requires IsDraw(draw)
    ensures sampled <==> draw < rate
    ensures rate >= 1.0 ==> sampled
    ensures rate <= 0.0 ==> !sampled
  {
    if rate >= 1.0 then true
    else if rate <= 0.0 then false
    else draw < rate
  }

  /** Whether the gate consults the random source at all for this rate. */
  predicate DrawsAt(rate: real) {
    0.0 < rate < 1.0
  }

  /** At full or zero rate the outcome does not depend on the draw. */
  lemma {:induction false} DrawIrrelevantOutsideOpenInterval(rate: real, d1: real, d2: real)
    requires IsDraw(d1) && IsDraw(d2) && !DrawsAt(rate)
    ensures ShouldSample(rate, d1) == ShouldSample(rate, d2)
  {
  }

  function Pow10(n: nat): (p: nat)
    ensures p >= 1
  {
    if n == 0 then 1 else 10 * Pow10(n - 1)
  }

  /** The value of the digit runs either side of a decimal point. */
  function PointValue(whole: string, fraction: string): (v: real)
    requires AllDigits(whole) && AllDigits(fraction)
    ensures v >= 0.0
  {
    DigitsValue(whole) as real + DigitsValue(fraction) as real / Pow10(|fraction|) as real
  }

  /** `text` has a decimal point at `i`, with only digits before and after it. */
  predicate PointAt(text: string, i: int) {
    0 <= i < |text| && text[i] == '.' && AllDigits(text[..i]) && AllDigits(text[i + 1..])
  }

  /** Plain decimal notation: a run of digits, or one point with digit runs
      either side and at least one digit in all. */
  predicate IsDecimalText(text: string) {
    IsDigits(text) || (|text| >= 2 && exists i | 0 <= i < |text| :: PointAt(text, i))
  }

  /** Python's `float(text)` on plain decimal notation: it parses exactly the
      decimal texts, to a value that is never negative. */
  function ParseDecimal(text: string): (r: Option<real>)
    ensures r.Some? <==> IsDecimalText(text)
    ensures r.Some? ==> r.value >= 0.0
    ensures text == "" ==> r.None?
  {
    DecimalTextSplits(text);
    var parts := Split(text, '.');
    if |parts| == 1 && IsDigits(parts[0]) then
      Some(DigitsValue(parts[0]) as real)
    else if |parts| == 2 && AllDigits(parts[0]) && AllDigits(parts[1]) && |parts[0]| + |parts[1]| > 0 then
      Some(PointValue(parts[0], parts[1]))
    else
      None
  }

  /** Digit runs hold no point. */
  lemma DigitsHaveNoPoint(a: string)
    requires AllDigits(a)
    ensures '.' !in a
  {
    forall i | 0 <= i < |a|
      ensures a[i] != '.'
    {
      assert IsDigit(a[i]);
    }
  }

  /** Any whole number written in decimal reads back as itself. */
  lemma WholeNumbersParse(n: nat)
    ensures ParseDecimal(NatToString(n)) == Some(n as real)
  {
    var s := NatToString(n);
    DigitsHaveNoPoint(s);
    SplitWithoutSeparator(s, '.');
    NatToStringRoundTrip(n);
  }

  /** A digit string with no point reads as its whole-number value. */
  lemma DigitStringsParse(a: string)
    requires IsDigits(a)
    ensures ParseDecimal(a) == Some(DigitsValue(a) as real)
  {
    DigitsHaveNoPoint(a);
    SplitWithoutSeparator(a, '.');
  }

  /** A decimal text is exactly one that splits at `.` into one digit run, or
      into two digit runs that are not both empty. */
  lemma DecimalTextSplits(text: string)
    ensures var parts := Split(text, '.');
            IsDecimalText(text) <==>
              || (|parts| == 1 && IsDigits(parts[0]))
              || (|parts| == 2 && AllDigits(parts[0]) && AllDigits(parts[1]) && |parts[0]| + |parts[1]| > 0)
  {
    var parts := Split(text, '.');
    SplitPieces(text, '.');
    if IsDigits(text) {
      DigitsHaveNoPoint(text);
      SplitWithoutSeparator(text, '.');
    } else if |text| >= 2 && exists i | 0 <= i < |text| :: PointAt(text, i) {
      var i :| 0 <= i < |text| && PointAt(text, i);
      var a, b := text[..i], text[i + 1..];
      DigitsHaveNoPoint(a);
      DigitsHaveNoPoint(b);
      assert text == a + ['.'] + b;
      SplitAtFirstSeparator(a, '.', b);
      SplitWithoutSeparator(b, '.');
      assert parts == [a, b];
    }
    if |parts| == 2 && AllDigits(parts[0]) && AllDigits(parts[1]) && |parts[0]| + |parts[1]| > 0 {
      var i := |parts[0]|;
      assert text[..i] == parts[0] && text[i + 1..] == parts[1];
      assert PointAt(text, i);
    }
  }

  /** `a.b` with digit runs `a` and `b`, not both empty, reads as `a` plus
      `b` tenths, hundredths and so on by the length of `b`. */
  lemma DecimalsParse(a: string, b: string)
    requires AllDigits(a) && AllDigits(b) && |a| + |b| > 0
    ensures ParseDecimal(a + "." + b) ==
            Some(DigitsValue(a) as real + DigitsValue(b) as real / Pow10(|b|) as real)
  {
    PointSplits(a, b);
    assert PointValue(a, b) == DigitsValue(a) as real + DigitsValue(b) as real / Pow10(|b|) as real;
  }

  /** `a.b` splits at its point into `a` and `b`, which are then valued. */
  lemma PointSplits(a: string, b: string)
    requires AllDigits(a) && AllDigits(b) && |a| + |b| > 0
    ensures ParseDecimal(a + "." + b) == Some(PointValue(a, b))
  {
    DigitsHaveNoPoint(a);
    DigitsHaveNoPoint(b);
    SplitAtFirstSeparator(a, '.', b);
    SplitWithoutSeparator(b, '.');
    assert a + "." + b == a + ['.'] + b;
    assert Split(a + "." + b, '.') == [a, b];
  }

  /** Texts `float()` refuses are refused: letters, a second point, and a
      lone point. */
  lemma MalformedRatesDoNotParse()
    ensures ParseDecimal("abc") == None
    ensures ParseDecimal("1.2.3") == None
    ensures ParseDecimal(".") == None
  {
    assert !IsDigit("abc"[0]);
    assert !IsDigit("1.2.3"[1]);
    forall i | 0 <= i < 5
      ensures !PointAt("1.2.3", i)
    {
      if i == 1 {
        assert "1.2.3"[2..][1] == '.';
      } else if i == 3 {
        assert "1.2.3"[..3][1] == '.';
      }
    }
  }

  /** `sample_rate or float(env("LOG_SAMPLE_RATE", "1.0"))`: an argument of
      `None` or `0.0` is falsy, so the setting is read instead. */
  function EffectiveRate(sampleRate: Option<real>, env: Env): (r: Option<real>)
    ensures sampleRate.Some? && sampleRate.value != 0.0 ==> r == sampleRate
    ensures (sampleRate.None? || sampleRate.value == 0.0) ==>
              r == ParseDecimal(Lookup(env, RateVariable, DefaultRateText))
  {
    if sampleRate.Some? && sampleRate.value != 0.0 then sampleRate
    else ParseDecimal(Lookup(env, RateVariable, DefaultRateText))
  }

  /** `d.e` for single digits `d` and `e` reads as `d` plus `e` tenths. */
  lemma OneDecimalPlace(d: char, e: char)
    requires IsDigit(d) && IsDigit(e)
    ensures ParseDecimal([d, '.', e]) == Some(DigitOf(d) as real + DigitOf(e) as real / 10.0)
  {
    assert [d] + "." + [e] == [d, '.', e];
    DecimalsParse([d], [e]);
    var whole, tenths := DigitsValue([d]), DigitsValue([e]);
    assert whole == DigitOf(d) by { assert [d][..0] == ""; }
    assert tenths == DigitOf(e) by { assert [e][..0] == ""; }
    assert Pow10(|[e]|) == 10 by { assert Pow10(0) == 1; }
    assert ParseDecimal([d, '.', e]) == Some(whole as real + tenths as real / 10.0);
  }

  /** The three settings the logger tests use read as the rates they spell. */
  lemma RateTextsParse()
    ensures ParseDecimal("1.0") == Some(1.0)
    ensures ParseDecimal("0.0") == Some(0.0)
    ensures ParseDecimal("0.5") == Some(0.5)
  {
    OneDecimalPlace('1', '0');
    OneDecimalPlace('0', '0');
    OneDecimalPlace('0', '5');
  }

  /** With no rate argument (or a falsy 0.0) and LOG_SAMPLE_RATE set to "0.0",
      the effective rate is zero and no draw ever samples. */
  lemma ZeroRateSettingNeverSamples(sampleRate: Option<real>, env: Env, draw: real)
    requires sampleRate.None? || sampleRate.value == 0.0
    requires Get(env, RateVariable) == Some("0.0")
    requires IsDraw(draw)
    ensures EffectiveRate(sampleRate, env) == Some(0.0)
    ensures !ShouldSample(EffectiveRate(sampleRate, env).value, draw)
  {
    RateTextsParse();
  }

  /** With the setting at "0.5", a draw of 0.3 samples and a draw of 0.7 does not. */
  lemma HalfRateSetting(env: Env)
    requires Get(env, RateVariable) == Some("0.5")
    ensures EffectiveRate(None, env) == Some(0.5)
    ensures ShouldSample(0.5, 0.3) && !ShouldSample(0.5, 0.7)
  {
    RateTextsParse();
  }
}

=== FILE: text.dfy ===
/** String helpers the model needs: Python truthiness of optional strings,
    decimal rendering and parsing, substring search, `str.split` on one
    separator, `os.path.basename`, lower-casing into ASCII letters and code-point order. */
module Text {
  import opened Wrappers

  /** Python truthiness of an optional string: `None` and `""` are falsy. */
  predicate IsTruthy(o: Option<string>) {
    o.Some? && |o.value| > 0
  }

  // ---------------------------------------------------------------------
  // Decimal digits

  predicate IsDigit(c: char) {
    '0' <= c <= '9'
  }

  predicate AllDigits(s: string) {
    forall i :: 0 <= i < |s| ==> IsDigit(s[i])
  }

  /** Python's `str.isdigit()` on ASCII text: non-empty and every character a digit. */
  predicate IsDigits(s: string) {
    |s| > 0 && AllDigits(s)
  }

  function DigitChar(d: nat): (c: char)
    requires d < 10
    ensures IsDigit(c)
    ensures c as int - '0' as int == d
  {
    (d + '0' as int) as char
  }

  /** Decimal rendering of a line number, as `str(n)` prints it. */
  function NatToString(n: nat): (s: string)
    ensures IsDigits(s)
    ensures |s| == 1 || s[0] != '0'
    decreases n
  {
    if n < 10 then [DigitChar(n)] else NatToString(n / 10) + [DigitChar(n % 10)]
  }

  function DigitOf(c: char): nat
    requires IsDigit(c)
  {
    c as int - '0' as int
  }

  /** The value of a string of decimal digits (0 for the empty string). */
  function DigitsValue(s: string): nat
    requires AllDigits(s)
  {
    if |s| == 0 then 0
    else DigitsValue(s[..|s| - 1]) * 10 + DigitOf(s[|s| - 1])
  }

  /** Rendering a number and reading it back gives the number. */
  lemma {:induction false} NatToStringRoundTrip(n: nat)
    ensures DigitsValue(NatToString(n)) == n
    decreases n
  {
    var s := NatToString(n);
    if n >= 10 {
      NatToStringRoundTrip(n / 10);
      assert s[..|s| - 1] == NatToString(n / 10);
    }
  }

  // ---------------------------------------------------------------------
  // Substrings

  predicate StartsWith(s: string, prefix: string) {
    |prefix| <= |s| && s[..|prefix|] == prefix
  }

  /** `sub in s` in Python: `sub` occurs somewhere in `s`. */
  predicate Contains(s: string, sub: string)
    decreases |s|
  {
    StartsWith(s, sub) || (|s| > 0 && Contains(s[1..], sub))
  }

  /** `sub` occurs in `s` starting at index `i`. */
  predicate OccursAt(s: string, sub: string, i: int) {
    0 <= i && i + |sub| <= |s| && s[i..i + |sub|] == sub
  }

  /** An occurrence at any position is found by the search. */
  lemma {:induction false} OccurrenceIsContained(s: string, sub: string, i: int)
    requires OccursAt(s, sub, i)
    ensures Contains(s, sub)
    decreases i
  {
    if i == 0 {
      assert s[..|sub|] == s[i..i + |sub|];
    } else {
      var t := s[1..];
      assert t[i - 1..i - 1 + |sub|] == s[i..i + |sub|];
      OccurrenceIsContained(t, sub, i - 1);
    }
  }

  /** A successful search has found an occurrence at some position. */
  lemma {:induction false} ContainedHasOccurrence(s: string, sub: string)
    requires Contains(s, sub)
    ensures exists i :: OccursAt(s, sub, i)
    decreases |s|
  {
    if StartsWith(s, sub) {
      assert OccursAt(s, sub, 0);
    } else {
      var t := s[1..];
      ContainedHasOccurrence(t, sub);
      var j :| OccursAt(t, sub, j);
      assert s[j + 1..j + 1 + |sub|] == t[j..j + |sub|];
      assert OccursAt(s, sub, j + 1);
    }
  }

  /** Every character of a contained string occurs in the containing one. */
  lemma ContainedCharsOccur(s: string, sub: string, c: char)
    requires Contains(s, sub) && c in sub
    ensures c in s
  {
    ContainedHasOccurrence(s, sub);
    var i :| OccursAt(s, sub, i);
    var j :| 0 <= j < |sub| && sub[j] == c;
    assert s[i..i + |sub|][j] == s[i + j];
  }

  /** The search agrees with the positional definition of a substring, both ways. */
  lemma ContainsIffOccurs(s: string, sub: string)
    ensures Contains(s, sub) <==> exists i :: OccursAt(s, sub, i)
  {
    if Contains(s, sub) {
      ContainedHasOccurrence(s, sub);
    }
    if exists i :: OccursAt(s, sub, i) {
      var i :| OccursAt(s, sub, i);
      OccurrenceIsContained(s, sub, i);
    }
  }

  // ---------------------------------------------------------------------
  // Splitting on one separator

  /** Python's `s.split(sep)` for a one-character separator. */
  function Split(s: string, sep: char): (parts: seq<string>)
    ensures |parts| >= 1
    decreases |s|
  {
    if |s| == 0 then [""]
    else if s[0] == sep then [""] + Split(s[1..], sep)
    else
      var rest := Split(s[1..], sep);
      [[s[0]] + rest[0]] + rest[1..]
  }

  /** A string free of the separator splits into itself alone. */
  lemma {:induction false} SplitWithoutSeparator(s: string, sep: char)
    requires sep !in s
    ensures Split(s, sep) == [s]
    decreases |s|
  {
    if |s| > 0 {
      assert sep !in s[1..];
      SplitWithoutSeparator(s[1..], sep);
      assert [s[0]] + s[1..] == s;
    }
  }

  /** Splitting `head + sep + tail` peels off `head` when `head` has no separator. */
  lemma {:induction false} SplitAtFirstSeparator(head: string, sep: char, tail: string)
    requires sep !in head
    ensures Split(head + [sep] + tail, sep) == [head] + Split(tail, sep)
    decreases |head|
  {
    var s := head + [sep] + tail;
    if |head| == 0 {
      assert s[1..] == tail;
    } else {
      assert s[1..] == head[1..] + [sep] + tail;
      assert sep !in head[1..];
      SplitAtFirstSeparator(head[1..], sep, tail);
      assert [head[0]] + head[1..] == head;
    }
  }

  /** One piece is the whole string; two pieces rejoin around the one separator. */
  lemma {:induction false} SplitPieces(s: string, sep: char)
    ensures |Split(s, sep)| == 1 ==> Split(s, sep)[0] == s
    ensures |Split(s, sep)| == 2 ==> s == Split(s, sep)[0] + [sep] + Split(s, sep)[1]
    decreases |s|
  {
    if |s| > 0 {
      var rest := Split(s[1..], sep);
      SplitPieces(s[1..], sep);
      assert s == [s[0]] + s[1..];
      if s[0] != sep && |rest| == 2 {
        assert s[1..] == rest[0] + [sep] + rest[1];
        assert s == ([s[0]] + rest[0]) + [sep] + rest[1];
      }
    }
  }

  // ---------------------------------------------------------------------
  // Paths

  /** `os.path.basename`: the part of a `/`-separated path after its last `/`. */
  function Basename(path: string): (name: string)
    ensures '/' !in name
    ensures |name| <= |path|
    decreases |path|
  {
    if |path| == 0 || path[|path| - 1] == '/' then ""
    else Basename(path[..|path| - 1]) + [path[|path| - 1]]
  }

  /** A basename only holds characters of its path. */
  lemma {:induction false} BasenameAddsNoCharacter(path: string, c: char)
    requires c !in path
    ensures c !in Basename(path)
    decreases |path|
  {
    if |path| > 0 && path[|path| - 1] != '/' {
      assert c !in path[..|path| - 1];
      BasenameAddsNoCharacter(path[..|path| - 1], c);
    }
  }

  /** The basename of `dir + "/" + name` is `name` whenever `name` has no `/`. */
  lemma {:induction false} BasenameOfJoin(dir: string, name: string)
    requires '/' !in name
    ensures Basename(dir + "/" + name) == name
    decreases |name|
  {
    var p := dir + "/" + name;
    if |name| > 0 {
      var init := name[..|name| - 1];
      assert p[..|p| - 1] == dir + "/" + init;
      assert '/' !in init;
      BasenameOfJoin(dir, init);
      assert init + [name[|name| - 1]] == name;
    } else {
      assert p[|p| - 1] == '/';
    }
  }

  // ---------------------------------------------------------------------
  // Case and order

  /** The KELVIN SIGN, the one character outside ASCII that `str.lower()`
      turns into a single ASCII letter (`k`). */
  const KelvinSign: char := '\U{212A}'

  /** `str.lower()` on one character, as far as it yields ASCII letters: the
      capitals `A`-`Z` and the Kelvin sign. Other characters keep their case. */
  function LowerChar(c: char): char {
    if 'A' <= c <= 'Z' then (c as int - 'A' as int + 'a' as int) as char
    else if c == KelvinSign then 'k'
    else c
  }

  /** Lower-casing character by character. */
  function Lower(s: string): (r: string)
    ensures |r| == |s|
    ensures forall i :: 0 <= i < |s| ==> r[i] == LowerChar(s[i])
  {
    seq(|s|, i requires 0 <= i < |s| => LowerChar(s[i]))
  }

  /** Code-point lexicographic order on strings, `a <= b` in Python. */
  predicate LexLe(a: string, b: string)
    decreases |a|
  {
    if |a| == 0 then true
    else if |b| == 0 then false
    else if a[0] != b[0] then a[0] < b[0]
    else LexLe(a[1..], b[1..])
  }

  lemma {:induction false} LexLeTotal(a: string, b: string)
    ensures LexLe(a, b) || LexLe(b, a)
    decreases |a|
  {
    if |a| > 0 && |b| > 0 && a[0] == b[0] {
      LexLeTotal(a[1..], b[1..]);
    }
  }

  lemma {:induction false} LexLeTransitive(a: string, b: string, c: string)
    requires LexLe(a, b) && LexLe(b, c)
    ensures LexLe(a, c)
    decreases |a|
  {
    if |a| > 0 && |b| > 0 && |c| > 0 && a[0] == b[0] && b[0] == c[0] {
      LexLeTransitive(a[1..], b[1..], c[1..]);
    }
  }
}

=== FILE: user_ordering.dfy ===
/** The orderings `UserService.all` accepts (`sort_by` in id, username, email;
    `sort_type` asc or desc) and a stable insertion sort that realises them. */
module UserOrdering {
  import opened Wrappers
  import opened Text

  /** A stored user row. Timestamps are the formatted `YYYY-MM-DD HH:MM:SS` text. */
  datatype User = User(id: int, username: string, email: string, password: string,
                       createdAt: string, updatedAt: string)

  datatype SortField = ById | ByUsername | ByEmail
  datatype SortDir = Asc | Desc

  /** The column each ordering sorts on, as `sort_by` names it. */
  function ColumnName(f: SortField): string {
    match f
    case ById => "id"
    case ByUsername => "username"
    case ByEmail => "email"
  }

  /** The `sort_by` whitelist; anything else is rejected, and an accepted
      name selects the column of that name. */
  function ParseSortField(sortBy: string): (r: Option<SortField>)
    ensures r.Some? <==> sortBy in {"email", "username", "id"}
    ensures r.Some? ==> ColumnName(r.value) == sortBy
    ensures r == Some(ByEmail) <==> sortBy == "email"
    ensures r == Some(ByUsername) <==> sortBy == "username"
    ensures r == Some(ById) <==> sortBy == "id"
  {
    if sortBy == "email" then Some(ByEmail)
    else if sortBy == "username" then Some(ByUsername)
    else if sortBy == "id" then Some(ById)
    else None
  }

  /** The `sort_type` whitelist; anything else is rejected. */
  function ParseSortDir(sortType: string): (r: Option<SortDir>)
    ensures r.Some? <==> sortType in {"asc", "desc"}
    ensures r == Some(Asc) <==> sortType == "asc"
    ensures r == Some(Desc) <==> sortType == "desc"
  {
    if sortType == "asc" then Some(Asc)
    else if sortType == "desc" then Some(Desc)
    else None
  }

  predicate KeyLe(f: SortField, a: User, b: User) {
    match f
    case ById => a.id <= b.id
    case ByUsername => LexLe(a.username, b.username)
    case ByEmail => LexLe(a.email, b.email)
  }

  /** `a` may come before `b` in the requested order. */
  predicate Before(f: SortField, d: SortDir, a: User, b: User) {
    if d == Asc then KeyLe(f, a, b) else KeyLe(f, b, a)
  }

  lemma BeforeTotal(f: SortField, d: SortDir, a: User, b: User)
    ensures Before(f, d, a, b) || Before(f, d, b, a)
  {
    match f
    case ById =>
    case ByUsername => LexLeTotal(a.username, b.username);
    case ByEmail => LexLeTotal(a.email, b.email);
  }

  lemma BeforeTransitive(f: SortField, d: SortDir, a: User, b: User, c: User)
    requires Before(f, d, a, b) && Before(f, d, b, c)
    ensures Before(f, d, a, c)
  {
    match f
    case ById =>
    case ByUsername =>
      if d == Asc { LexLeTransitive(a.username, b.username, c.username); }
      else { LexLeTransitive(c.username, b.username, a.username); }
    case ByEmail =>
      if d == Asc { LexLeTransitive(a.email, b.email, c.email); }
      else { LexLeTransitive(c.email, b.email, a.email); }
  }

  ghost predicate SortedBy(f: SortField, d: SortDir, s: seq<User>) {
    forall i, j | 0 <= i < j < |s| :: Before(f, d, s[i], s[j])
  }

  ghost predicate AllAfter(f: SortField, d: SortDir, h: User, s: seq<User>) {
    forall k | 0 <= k < |s| :: Before(f, d, h, s[k])
  }

  /** Whatever may follow `h` in `s` and `x` may follow it in any rearrangement
      of `s` with `x` added. */
  lemma {:induction false} AllAfterPermutation(f: SortField, d: SortDir, h: User, s: seq<User>, x: User, t: seq<User>)
    requires AllAfter(f, d, h, s) && Before(f, d, h, x)
    requires multiset(t) == multiset(s) + multiset{x}
    ensures AllAfter(f, d, h, t)
  {
    forall k | 0 <= k < |t|
      ensures Before(f, d, h, t[k])
    {
      assert t[k] in multiset(t);
      if t[k] != x {
        assert t[k] in multiset(s);
        var j :| 0 <= j < |s| && s[j] == t[k];
      }
    }
  }

  /** A user that may precede every element of a sorted sequence may head it. */
  lemma ConsSorted(f: SortField, d: SortDir, h: User, s: seq<User>)
    requires AllAfter(f, d, h, s) && SortedBy(f, d, s)
    ensures SortedBy(f, d, [h] + s)
  {
    forall i, j | 0 <= i < j < |[h] + s|
      ensures Before(f, d, ([h] + s)[i], ([h] + s)[j])
    {
      assert ([h] + s)[j] == s[j - 1];
      if i > 0 { assert ([h] + s)[i] == s[i - 1]; }
    }
  }

  /** Insert `x` into a sorted sequence, after every element that may precede it. */
  function Insert(f: SortField, d: SortDir, x: User, s: seq<User>): (r: seq<User>)
    requires SortedBy(f, d, s)
    ensures multiset(r) == multiset(s) + multiset{x}
    ensures SortedBy(f, d, r)
    decreases |s|
  {
    if |s| == 0 then [x]
    else if Before(f, d, x, s[0]) then
      assert AllAfter(f, d, x, s) by {
        forall j | 0 <= j < |s|
          ensures Before(f, d, x, s[j])
        {
          if j > 0 { BeforeTransitive(f, d, x, s[0], s[j]); }
        }
      }
      ConsSorted(f, d, x, s);
      [x] + s
    else
      var rest := Insert(f, d, x, s[1..]);
      assert AllAfter(f, d, s[0], rest) by {
        BeforeTotal(f, d, x, s[0]);
        AllAfterPermutation(f, d, s[0], s[1..], x, rest);
      }
      ConsSorted(f, d, s[0], rest);
      assert s == [s[0]] + s[1..];
      [s[0]] + rest
  }

  /** The users arranged in the requested order; ties keep their stored order. */
  function Sort(f: SortField, d: SortDir, s: seq<User>): (r: seq<User>)
    ensures multiset(r) == multiset(s)
    ensures |r| == |s|
    ensures SortedBy(f, d, r)
    decreases |s|
  {
    if |s| == 0 then []
    else
      assert s == [s[0]] + s[1..];
      Insert(f, d, s[0], Sort(f, d, s[1..]))
  }

  /** Sorting keeps exactly the users it was given. */
  lemma SortKeepsMembers(f: SortField, d: SortDir, s: seq<User>, u: User)
    ensures u in Sort(f, d, s) <==> u in s
  {
    var r := Sort(f, d, s);
    assert u in r <==> u in multiset(r);
    assert u in s <==> u in multiset(s);
  }
}

=== FILE: user_service.dfy ===
/** UserService over an abstract store: `all` (filters, ordering, pagination
    and the page arithmetic), `total`, `get_by_id` / `find`, `save`, `update`
    and `delete`. The database is a sequence of user rows. */
module UserService {
  import opened Wrappers
  import opened Text
  import opened UserOrdering
  import opened SqlLike

  type Store = seq<User>

  /** The HTTPException raised by the service, by status code and detail. */
  datatype HttpError = HttpError(status: int, detail: string)

  const NotFound := HttpError(404, "User not found")
  const EmailTaken := HttpError(422, "User with this email already exists")
  const HashPrefix := "hashed_"

  /** The response shape: every column but the password. */
  datatype UserResponse = UserResponse(id: int, username: string, email: string,
                                       createdAt: string, updatedAt: string)

  function ToResponse(u: User): UserResponse {
    UserResponse(u.id, u.username, u.email, u.createdAt, u.updatedAt)
  }

  /** The database's primary key: no two rows share an id. */
  ghost predicate UniqueIds(store: Store) {
    forall i, j | 0 <= i < j < |store| :: store[i].id != store[j].id
  }

  predicate HasId(store: Store, id: int) {
    exists i | 0 <= i < |store| :: store[i].id == id
  }

  predicate HasEmail(store: Store, email: string) {
    exists i | 0 <= i < |store| :: store[i].email == email
  }

  /** `total()`: the number of users, whatever any listing filters on: no
      filtered listing has more rows, and the unfiltered one has exactly this many. */
  function Total(store: Store): (count: nat)
    ensures count == |Filter(Filters(None, None, None, None), store)|
    ensures forall filters :: |Filter(filters, store)| <= count
  {
    |store|
  }

  // ---------------------------------------------------------------------
  // Lookup

  /** The position of the first row with this id (`.first()`). */
  function IndexOf(store: Store, id: int): (r: Option<nat>)
    ensures r.None? <==> !HasId(store, id)
    ensures r.Some? ==> r.value < |store| && store[r.value].id == id
    ensures r.Some? ==> forall j | 0 <= j < r.value :: store[j].id != id
    decreases |store|
  {
    if |store| == 0 then None
    else if store[0].id == id then Some(0)
    else
      match IndexOf(store[1..], id)
      case None => None
      case Some(k) => Some(k + 1)
  }

  /** `get_by_id(id)`: the row, or 404 when there is none. */
  function GetById(store: Store, id: int): (r: Result<User, HttpError>)
    ensures r.Failure? <==> !HasId(store, id)
    ensures r.Failure? ==> r.error == NotFound
    ensures r.Success? ==> r.value in store && r.value.id == id
  {
    match IndexOf(store, id)
    case None => Failure(NotFound)
    case Some(k) => Success(store[k])
  }

  /** `find(id)`: the response of `get_by_id`, so 404 for an absent id. */
  function Find(store: Store, id: int): (r: Result<UserResponse, HttpError>)
    ensures r.Failure? <==> !HasId(store, id)
    ensures r.Failure? ==> r.error == NotFound
    ensures r.Success? ==> r.value.id == id && exists u | u in store :: ToResponse(u) == r.value
  {
    match GetById(store, id)
    case Failure(e) => Failure(e)
    case Success(u) => Success(ToResponse(u))
  }

  // ---------------------------------------------------------------------
  // Listing

  datatype Filters = Filters(startDate: Option<string>, endDate: Option<string>,
                             username: Option<string>, email: Option<string>)

  /** The date filter applies only when both dates are given, and then keeps
      the rows created within the two whole days, bounds included. */
  predicate DateMatches(f: Filters, u: User) {
    IsTruthy(f.startDate) && IsTruthy(f.endDate) ==>
      LexLe(f.startDate.value + " 00:00:00", u.createdAt) && LexLe(u.createdAt, f.endDate.value + " 23:59:59")
  }

  /** Every given filter keeps the row: the date range, and `LIKE '%x%'` on
      the username and on the email. */
  predicate Matches(f: Filters, u: User) {
    && DateMatches(f, u)
    && (IsTruthy(f.username) ==> ContainsPattern(u.username, f.username.value))
    && (IsTruthy(f.email) ==> ContainsPattern(u.email, f.email.value))
  }

  /** With no `%` or `_` in the filter texts, the name filters are plain
      substring search. */
  lemma LiteralFiltersSearchSubstrings(f: Filters, u: User)
    requires f.username.Some? ==> IsLiteral(f.username.value)
    requires f.email.Some? ==> IsLiteral(f.email.value)
    ensures Matches(f, u) <==>
              && DateMatches(f, u)
              && (IsTruthy(f.username) ==> Contains(u.username, f.username.value))
              && (IsTruthy(f.email) ==> Contains(u.email, f.email.value))
  {
    if f.username.Some? {
      LiteralPatternIsSubstring(u.username, f.username.value);
    }
    if f.email.Some? {
      LiteralPatternIsSubstring(u.email, f.email.value);
    }
  }

  /** The rows the filters keep: each matching row as often as it is stored,
      no other row, and all rows when every row matches. */
  function Filter(f: Filters, store: Store): (r: Store)
    ensures forall u :: u in r <==> u in store && Matches(f, u)
    ensures forall u :: multiset(r)[u] == if Matches(f, u) then multiset(store)[u] else 0
    ensures (forall i | 0 <= i < |store| :: Matches(f, store[i])) ==> r == store
    ensures |r| <= |store|
    decreases |store|
  {
    if |store| == 0 then []
    else
      var rest := Filter(f, store[1..]);
      assert store == [store[0]] + store[1..];
      assert forall u :: u in store <==> u == store[0] || u in store[1..];
      if Matches(f, store[0]) then [store[0]] + rest else rest
  }

  /** The rows `[offset, offset + limit)` of `s`, clamped to its end, as SQL
      `OFFSET` and `LIMIT` return them. */
  function Window(s: seq<User>, offset: nat, limit: nat): (r: seq<User>)
    ensures |r| <= limit
    ensures offset <= |s| ==> |r| == (if offset + limit <= |s| then limit else |s| - offset)
    ensures forall i | 0 <= i < |r| :: offset + i < |s| && r[i] == s[offset + i]
  {
    if offset >= |s| then []
    else if offset + limit >= |s| then s[offset..]
    else s[offset..offset + limit]
  }

  /** Python's `//` on a positive divisor: floor division. */
  function FloorDiv(a: int, b: int): (q: int)
    requires b > 0
    ensures b * q <= a < b * (q + 1)
  {
    a / b
  }

  datatype ListQuery = ListQuery(page: int, itemsPerPage: int, sortType: string, sortBy: string, filters: Filters)

  /** The tuple `all` returns: the page's users, the total number of users,
      the last page number, and the numbers of the page's first and last item. */
  datatype Page = Page(items: seq<UserResponse>, total: int, lastPage: int, firstItem: int, lastItem: int)

  /** The rows a listing shows, before pagination. */
  function Listing(store: Store, f: SortField, d: SortDir, filters: Filters): seq<User> {
    Sort(f, d, Filter(filters, store))
  }

  predicate ValidSort(q: ListQuery) {
    ParseSortField(q.sortBy).Some? && ParseSortDir(q.sortType).Some?
  }

  /** The rows shown on the requested page: the listing's window at
      `(page - 1) * items_per_page`. */
  function PageRows(store: Store, q: ListQuery): seq<User>
    requires q.page >= 1 && q.itemsPerPage >= 1 && ValidSort(q)
  {
    Window(Listing(store, ParseSortField(q.sortBy).value, ParseSortDir(q.sortType).value, q.filters),
           (q.page - 1) * q.itemsPerPage, q.itemsPerPage)
  }

  /** The response of every row, in order. */
  function Responses(rows: seq<User>): (r: seq<UserResponse>)
    ensures |r| == |rows|
    ensures forall i | 0 <= i < |rows| :: r[i] == ToResponse(rows[i])
  {
    seq(|rows|, i requires 0 <= i < |rows| => ToResponse(rows[i]))
  }

  /** The page `all` returns for an accepted sort and a positive page size:
      the responses of the page's rows, the total number of users, the last
      page number `(total - 1) // items_per_page + 1`, and the numbers of the
      page's first and last item. */
  function ListPage(store: Store, q: ListQuery): (p: Page)
    requires q.page >= 1 && q.itemsPerPage >= 1 && ValidSort(q)
    ensures p.items == Responses(PageRows(store, q))
    ensures p.total == Total(store)
    ensures p.lastPage == LastPage(Total(store), q.itemsPerPage)
    ensures p.firstItem == (q.page - 1) * q.itemsPerPage + 1
    ensures p.lastItem == Min((q.page - 1) * q.itemsPerPage + q.itemsPerPage, Total(store))
  {
    var offset := (q.page - 1) * q.itemsPerPage;
    var total := Total(store);
    Page(Responses(PageRows(store, q)), total, LastPage(total, q.itemsPerPage),
         offset + 1, Min(offset + q.itemsPerPage, total))
  }

  /** `all(page, items_per_page, sort_type, sort_by, ...)`. A rejected sort
      raises a 400 inside the `try`, and `items_per_page == 0` divides by
      zero there; the generic handler catches both, logs them and returns `None`. */
  function All(store: Store, q: ListQuery): (r: Option<Page>)
    requires q.itemsPerPage >= 0 && (q.itemsPerPage == 0 || q.page >= 1)
    ensures r.None? <==> ParseSortField(q.sortBy).None? || ParseSortDir(q.sortType).None? || q.itemsPerPage == 0
    ensures r.Some? ==> r.value == ListPage(store, q)
  {
    if !ValidSort(q) || q.itemsPerPage == 0 then None
    else Some(ListPage(store, q))
  }

  /** The last page number of `total` rows at `n` per page: `(total - 1) // n + 1`. */
  function LastPage(total: int, n: int): int
    requires n >= 1
  {
    FloorDiv(total - 1, n) + 1
  }

  function Min(a: int, b: int): int {
    if a <= b then a else b
  }

  /** A positive factor keeps the sign of the other. */
  lemma MulSign(n: int, a: int)
    requires n >= 1
    ensures a >= 0 ==> n * a >= 0
    ensures a <= -1 ==> n * a <= -1
  {
  }

  /** `total // n + 1` on `total - 1` is the number of pages of `n` items
      that `total` items fill: the ceiling of `total / n`, and 0 for no items. */
  lemma LastPageIsCeiling(total: nat, n: int)
    requires n >= 1
    ensures var last := LastPage(total, n);
            && (total == 0 ==> last == 0)
            && (total > 0 ==> (last - 1) * n < total <= last * n)
  {
    var l := FloorDiv(total - 1, n);
    assert n * l <= total - 1 < n * (l + 1);
    if total == 0 {
      MulSign(n, l);
      MulSign(n, l + 1);
    }
    assert (l + 1 - 1) * n == n * l;
    assert (l + 1) * n == n * (l + 1);
  }

  /** The page numbers: the last page is the ceiling of total / per-page (0 for
      an empty store), the last item never passes the total, and a page never
      holds more than the per-page count. */
  lemma PageArithmetic(store: Store, q: ListQuery)
    requires q.page >= 1 && q.itemsPerPage >= 1 && ValidSort(q)
    ensures var p := All(store, q).value;
            && (|store| == 0 ==> p.lastPage == 0)
            && (|store| > 0 ==> (p.lastPage - 1) * q.itemsPerPage < |store| <= p.lastPage * q.itemsPerPage)
            && p.lastItem <= p.total
            && |p.items| <= q.itemsPerPage
  {
    var p := ListPage(store, q);
    assert All(store, q).value == p;
    var n := q.itemsPerPage;
    var offset := (q.page - 1) * n;
    assert p.total == |store|;
    LastPageIsCeiling(|store|, n);
    assert p.lastPage == LastPage(|store|, n);
    assert p.lastItem == Min(offset + n, |store|) <= |store|;
    assert |p.items| == |PageRows(store, q)| <= n;
  }

  /** A window of a sorted listing is sorted, and holds only listed rows. */
  lemma WindowOfSorted(f: SortField, d: SortDir, s: seq<User>, offset: nat, limit: nat)
    requires SortedBy(f, d, s)
    ensures SortedBy(f, d, Window(s, offset, limit))
    ensures forall u | u in Window(s, offset, limit) :: u in s
  {
    var w := Window(s, offset, limit);
    forall i, j | 0 <= i < j < |w|
      ensures Before(f, d, w[i], w[j])
    {
      assert w[i] == s[offset + i] && w[j] == s[offset + j];
    }
    forall u | u in w
      ensures u in s
    {
      var i :| 0 <= i < |w| && w[i] == u;
      assert s[offset + i] == u;
    }
  }

  /** Every user on a page is a stored user that passes every filter, and the
      page is in the requested order. */
  lemma PageShowsMatchingUsersInOrder(store: Store, q: ListQuery)
    requires q.page >= 1 && q.itemsPerPage >= 1 && ValidSort(q)
    ensures var rows := PageRows(store, q);
            && (forall u | u in rows :: u in store && Matches(q.filters, u))
            && SortedBy(ParseSortField(q.sortBy).value, ParseSortDir(q.sortType).value, rows)
  {
    var f := ParseSortField(q.sortBy).value;
    var d := ParseSortDir(q.sortType).value;
    var kept := Filter(q.filters, store);
    var rows := PageRows(store, q);
    var offset := (q.page - 1) * q.itemsPerPage;
    MulSign(q.itemsPerPage, q.page - 1);
    assert rows == Window(Sort(f, d, kept), offset, q.itemsPerPage);
    WindowOfSorted(f, d, Sort(f, d, kept), offset, q.itemsPerPage);
    forall u | u in rows
      ensures u in store && Matches(q.filters, u)
    {
      SortKeepsMembers(f, d, kept, u);
    }
  }

  /** `total` ignores the filters: two listings of the same store report the same total. */
  lemma TotalIgnoresFilters(store: Store, q1: ListQuery, q2: ListQuery)
    requires q1.page >= 1 && q1.itemsPerPage >= 1 && ValidSort(q1)
    requires q2.page >= 1 && q2.itemsPerPage >= 1 && ValidSort(q2)
    ensures All(store, q1).value.total == All(store, q2).value.total == |store|
  {
  }

  // ---------------------------------------------------------------------
  // Writes

  datatype CreateRequest = CreateRequest(username: string, email: string, password: string)

  /** The store after a write and the response the service returns. */
  datatype Written = Written(store: Store, response: UserResponse)

  /** `save(user)`: a taken email is rejected with 422; otherwise the row is
      added with its password stored as `"hashed_" + password`. The database
      supplies the new id and the creation time. */
  function Save(store: Store, req: CreateRequest, newId: int, now: string): (r: Result<Written, HttpError>)
    requires !HasId(store, newId)
    ensures r.Failure? <==> HasEmail(store, req.email)
    ensures r.Failure? ==> r.error == EmailTaken
    ensures r.Success? ==>
              var u := User(newId, req.username, req.email, HashPrefix + req.password, now, now);
              r.value.store == store + [u] && r.value.response == ToResponse(u)
  {
    if HasEmail(store, req.email) then Failure(EmailTaken)
    else
      var u := User(newId, req.username, req.email, HashPrefix + req.password, now, now);
      Success(Written(store + [u], ToResponse(u)))
  }

  /** A saved user can be found under its new id, and its stored password is
      the given one behind the `hashed_` prefix. */
  lemma SaveThenFind(store: Store, req: CreateRequest, newId: int, now: string)
    requires UniqueIds(store) && !HasId(store, newId) && !HasEmail(store, req.email)
    ensures var w := Save(store, req, newId, now).value;
            && UniqueIds(w.store)
            && GetById(w.store, newId).Success?
            && GetById(w.store, newId).value.email == req.email
            && StartsWith(GetById(w.store, newId).value.password, HashPrefix)
            && GetById(w.store, newId).value.password[|HashPrefix|..] == req.password
  {
    var w := Save(store, req, newId, now).value;
    assert w.store[|store|].id == newId;
    var k := IndexOf(w.store, newId).value;
    assert k == |store|;
  }

  /** Saving keeps emails unique: once every stored email is distinct, it stays so. */
  lemma SaveKeepsEmailsUnique(store: Store, req: CreateRequest, newId: int, now: string)
    requires !HasId(store, newId)
    requires forall i, j | 0 <= i < j < |store| :: store[i].email != store[j].email
    requires Save(store, req, newId, now).Success?
    ensures var s := Save(store, req, newId, now).value.store;
            forall i, j | 0 <= i < j < |s| :: s[i].email != s[j].email
  {
    var s := Save(store, req, newId, now).value.store;
    forall i, j | 0 <= i < j < |s|
      ensures s[i].email != s[j].email
    {
      if j == |store| {
        assert s[i] == store[i];
      }
    }
  }

  /** The fields an update request sets; unset fields are absent. */
  datatype UpdateRequest = UpdateRequest(username: Option<string>, email: Option<string>, password: Option<string>)

  /** The row after `setattr` of every supplied field; a supplied password is
      stored behind the `hashed_` prefix. */
  function ApplyUpdate(u: User, req: UpdateRequest): (v: User)
    ensures v.id == u.id && v.createdAt == u.createdAt && v.updatedAt == u.updatedAt
    ensures v.username == req.username.GetOr(u.username)
    ensures v.email == req.email.GetOr(u.email)
    ensures req.password.None? ==> v.password == u.password
    ensures req.password.Some? ==> StartsWith(v.password, HashPrefix) && v.password[|HashPrefix|..] == req.password.value
  {
    u.(username := req.username.GetOr(u.username),
       email := req.email.GetOr(u.email),
       password := if req.password.Some? then HashPrefix + req.password.value else u.password)
  }

  /** Applying the same update twice is applying it once: the password is
      prefixed from the request, never re-prefixed. */
  lemma ApplyUpdateIdempotent(u: User, req: UpdateRequest)
    ensures ApplyUpdate(ApplyUpdate(u, req), req) == ApplyUpdate(u, req)
  {
  }

  /** `update(id, user)`: 404 for an absent id; otherwise only that row
      changes, in only the supplied fields. */
  function Update(store: Store, id: int, req: UpdateRequest): (r: Result<Written, HttpError>)
    ensures r.Failure? <==> !HasId(store, id)
    ensures r.Failure? ==> r.error == NotFound
    ensures r.Success? ==>
              var k := IndexOf(store, id).value;
              && |r.value.store| == |store|
              && r.value.store[k] == ApplyUpdate(store[k], req)
              && (forall j | 0 <= j < |store| && j != k :: r.value.store[j] == store[j])
              && r.value.response == ToResponse(r.value.store[k])
  {
    match IndexOf(store, id)
    case None => Failure(NotFound)
    case Some(k) =>
      var v := ApplyUpdate(store[k], req);
      Success(Written(store[k := v], ToResponse(v)))
  }

  /** Updating never changes ids, so the key stays unique. */
  lemma UpdateKeepsIdsUnique(store: Store, id: int, req: UpdateRequest)
    requires UniqueIds(store) && HasId(store, id)
    ensures UniqueIds(Update(store, id, req).value.store)
  {
    var s := Update(store, id, req).value.store;
    forall i, j | 0 <= i < j < |s|
      ensures s[i].id != s[j].id
    {
      assert s[i].id == store[i].id && s[j].id == store[j].id;
    }
  }

  /** The store without its row at `k`; the rows after it move up by one. */
  function RemoveAt(store: Store, k: nat): (r: Store)
    requires k < |store|
    ensures |r| == |store| - 1
    ensures forall j | 0 <= j < k :: r[j] == store[j]
    ensures forall j | k <= j < |r| :: r[j] == store[j + 1]
  {
    store[..k] + store[k + 1..]
  }

  /** `delete(id)`: 404 for an absent id; otherwise the row is removed and
      its fields are returned. */
  function Delete(store: Store, id: int): (r: Result<Written, HttpError>)
    ensures r.Failure? <==> !HasId(store, id)
    ensures r.Failure? ==> r.error == NotFound
    ensures r.Success? ==>
              var k := IndexOf(store, id).value;
              && r.value.store == RemoveAt(store, k)
              && r.value.response == ToResponse(store[k])
              && r.value.response.id == id
  {
    match IndexOf(store, id)
    case None => Failure(NotFound)
    case Some(k) => Success(Written(RemoveAt(store, k), ToResponse(store[k])))
  }

  /** After a delete the id is gone: finding it again is 404, and every other
      user is still there. */
  lemma DeleteThenFind(store: Store, id: int)
    requires UniqueIds(store) && HasId(store, id)
    ensures var s := Delete(store, id).value.store;
            && GetById(s, id) == Failure(NotFound)
            && |s| == |store| - 1
            && UniqueIds(s)
            && forall u | u in store && u.id != id :: u in s
  {
    var k := IndexOf(store, id).value;
    var s := Delete(store, id).value.store;
    forall i | 0 <= i < |s|
      ensures s[i].id != id
    {
      if i < k { assert s[i] == store[i]; } else { assert s[i] == store[i + 1]; }
    }
    forall i, j | 0 <= i < j < |s|
      ensures s[i].id != s[j].id
    {
      var i', j' := if i < k then i else i + 1, if j < k then j else j + 1;
      assert s[i] == store[i'] && s[j] == store[j'];
    }
    forall u | u in store && u.id != id
      ensures u in s
    {
      var i :| 0 <= i < |store| && store[i] == u;
      if i < k { assert s[i] == u; } else { assert i > k && s[i - 1] == u; }
    }
  }
}

=== FILE: wrappers.dfy ===
/** Failure-carrying datatypes shared by every module of the model. */
module Wrappers {

  /** A value that may be missing: Python's `None` versus a present value. */
  datatype Option<+T> = None | Some(value: T) {
    function GetOr(default: T): T {
      match this
      case Some(v) => v
      case None => default
    }
  }

  /** The outcome of code that either returns a value or raises an error. */
  datatype Result<+T, +E> = Success(value: T) | Failure(error: E)
}
